=== FILE: README.md ===
# OnceUponAI in Dafny

OnceUponAI is a small library book-discovery system. It has four parts:

- `fetchdata.py` reads a list of titles (with optional author and call number). It looks each title up in Google Books and writes `data/books.csv`.
- `bookindex.py` embeds one composed text per catalogue row. It writes a FAISS index and the pickled catalogue side by side.
- `app.py` is a Streamlit front-end with an auto-rotating "Discover" carousel and a search that lays its five nearest matches out as a two-column grid.
- `app2.py` is a second front-end. Its carousel is slower, and clicking its buttons restarts the timer. It stores search results in the session and shows them one at a time behind Previous/Next Book buttons.

This project models the logic those scripts write inline as pure step functions and proves its properties:

- The carousel state machine, with both front-ends' settings (`Carousel`).
- What a front-end does with a search answer: the position filter, the card grid and the clamped result cursor (`Results`).
- The display rules: blurb cut-off and the call-number guard (`Display`).
- The ingestion normalisers and the ingestion loop (`Ingest`).
- The index builder's text composition and its row/vector correspondence (`BookIndex`).
- The CSV hand-over between ingestion and the front-ends (`Pipeline`).
- One whole refresh of each front-end (`ClassicApp`, `SplitApp`).

`Text` and `Seqs` hold the Python string and sequence operations the scripts rely on. A pandas cell is `Cell = NaN | Str(s)`, and a missing value prints as `"nan"`.

Everything the scripts get from outside the model is a parameter:

- Time is an integer timestamp per refresh.
- `df.sample` is a caller-supplied random order of the row numbers.
- A FAISS answer is a sequence of `(position, distance)` hits.
- The sentence encoder is a function from text to vector.
- A Google Books lookup is a `Response`, and the cover download is a `Cover` outcome.

Behaviour of the scripts worth noting:

- **Blank query with stored results.** In `app2.py` a blank query with the Search button pressed shows the warning only when no results are stored. With results stored, the `elif` at line 269 comes first, so the current result is shown instead (`SplitApp.BlankQueryNeverSearches`).
- **No length check on load.** `load_resources` does not compare the lengths of the index and the frame.
- **No empty-catalogue check.** `bookindex.py` has no check for an empty catalogue. The failure on an empty frame is a library error at line 38, before anything is written (`BookIndex.EmptyCatalogue`).
- **Numbered covers.** A cover filename carries the input row number `i + 1`. Two input rows never share a cover file, even when their sanitised titles agree (`Ingest.CoverFilenamesDistinct`).

## Model

| member | source | states |
|---|---|---|
| Carousel.Init | app2.py:174-179 | A new session fails only on an empty catalogue. Otherwise it is at position 0 with the timer starting now, and it holds `min(sampleSize, len(df))` distinct row numbers, all in range: 50 for app2.py, 20 for app.py |
| Carousel.Current | app.py:219 | `carousel_books.iloc[carousel_index]` is a catalogue row |
| Carousel.TimerStep | app2.py:181-184 | Only when strictly more than the interval has passed does the position move to the next book (wrapping) and the timer restart. Exactly at the interval nothing changes. The state stays valid |
| Carousel.Previous | app2.py:224-227 | Previous moves one book back, from the first to the last. It restarts the timer under app2.py's settings and leaves it alone under app.py's |
| Carousel.Next | app.py:254-257 | Next moves one book on, from the last to the first. It leaves the timer alone under app.py's settings and restarts it under app2.py's |
| Carousel.Refresh | app2.py:181-236 | The timer check runs first. A rotation ends the refresh and any click is lost. Otherwise the click is applied. The position always stays in range |
| Carousel.Run | app2.py:174-236 | Any sequence of refreshes keeps the state valid and the sample unchanged |
| Carousel.Nexts | app2.py:233-236 | Repeated Next clicks keep the state valid and the sample unchanged |
| Carousel.NextsMove | app2.py:233-236 | After k <= n Next clicks the position has moved k places round the ring |
| Carousel.NextsCycle | app.py:254-257 | n Next clicks return the carousel to the book it started on |
| Carousel.PreviousUndoesNext | app.py:246-257 | Previous after Next, and Next after Previous, give back the starting position |
| Carousel.SessionAlwaysShowsARow | app2.py:195-206 | Whatever refreshes follow session creation, the carousel's `iloc` lookup names a catalogue row |
| Carousel.SplitClickRestartsTimer | app2.py:224-236 | After a carousel click in app2.py no rotation happens for another 15 time units |
| Carousel.ClassicClickKeepsTimer | app.py:246-257 | In app.py a click leaves the last-rotation time alone, so a rotation that is due later still happens then. After a Next click that refresh moves a second book |
| Catalogue.CellStr | fetchdata.py:76 | `str()` of a cell is its text, and "nan" for a missing value |
| Catalogue.CsvCell | bookindex.py:13 | `read_csv` turns exactly pandas' default missing-value markers into NaN and keeps other text |
| Catalogue.CsvPrintsBack | bookindex.py:13-31 | A value that is not a missing-value marker, and the literal "nan", print back unchanged after the CSV round trip |
| Catalogue.ILoc | app2.py:261 | `iloc` succeeds exactly for -n <= i < n. A negative i counts from the end |
| Results.KeptAsWritten | app2.py:261 | The filter as written keeps exactly the hits with position < len(df), negative ones included |
| Results.RowsAsWrittenDefinedIff | app2.py:261 | The comprehension as written fails exactly when some kept position is below -len(df). Otherwise it yields one row per kept hit |
| Results.PaddingAlone | app2.py:260-261 | A lone padding hit (-1) yields the last catalogue book as written |
| Results.PaddingRepeatsLastBook | app2.py:260-261 | A FAISS padding hit (-1) appends the last catalogue book to the results as written |
| Results.CardsOfAsWritten | app.py:171-178 | The grid as written skips only ranks with position >= len(df) and shows `iloc[position]`. It gives at most one card per rank |
| Results.CardsOfAsWrittenDefinedIff | app.py:174-177 | The grid as written raises exactly when some rank's position is below -len(df) |
| Results.PaddingCardShowsLastBook | app.py:174-177 | As written, a padding rank (-1) gets a card showing the last catalogue book |
| Results.CardsAgreeWithoutPadding | app.py:174-177 | With no negative position, the grid as written and the intended grid show the same cards |
| Results.PaddingKeptAsWritten | app.py:174-176 | The `>= len(df)` skip as written keeps a padding hit |
| Results.Kept | app2.py:261 | The intended filter keeps exactly the hits naming a catalogue row, in ranked order |
| Results.Rows | app2.py:261 | The stored results are the rows of the kept hits, in ranked order, at most one per hit |
| Results.AgreeWithoutPadding | app2.py:261 | With no negative position, the comprehension as written and the intended filter give the same rows |
| Results.KeptAgreeWithoutPadding | app.py:174-176 | With no negative position, both filters keep the same hits |
| Results.PaddingDropped | app2.py:260-261 | The intended filter ignores a padding hit |
| Results.CardsOf | app.py:171-179 | The intended grid: the first k ranks give at most k cards |
| Results.CardsOfStep | app.py:174-178 | The intended grid: each rank adds one card exactly when its position names a row. The card goes after the earlier ones and carries that rank's row, distance and grid cell |
| Results.CardsShowTheirRank | app.py:171-179 | The intended grid: every card shows the row its rank names, with the distance at the same rank (`distances[0][i + col_idx]`). It sits in grid row rank/2, column rank%2 |
| Results.CardsRanked | app.py:171-174 | The intended grid: cards appear in strictly increasing rank |
| Results.CardsComplete | app.py:174-178 | The intended grid: every rank whose position names a row has a card |
| Results.Cards | app.py:171-179 | The intended grid: at most one card per hit |
| Results.LayOutGrid | app.py:171-179 | The nested two-per-row loop, with the corrected test, produces exactly the cards of the intended grid |
| Results.LayOutGridAsWritten | app.py:171-178 | The nested two-per-row loop as written (skip only `>= len(df)`, then `iloc`) produces exactly the as-written grid: the same cards, and the IndexError exactly where `Results.CardsOfAsWrittenDefinedIff` places it |
| Results.NewSearch | app2.py:260-265 | A search stores the kept rows in ranked order, at most one per hit, so at most 5 for FAISS's 5 answers, and puts the cursor on the first |
| Results.BrowsePrevious | app2.py:298-300 | Previous Book moves back only when the cursor is past the first result, and otherwise changes nothing |
| Results.BrowseNext | app2.py:304-306 | Next Book moves on only when the cursor is before the last result, and otherwise changes nothing |
| Results.BrowseNexts | app2.py:304-306 | Repeated Next Book clicks keep the cursor valid and the results unchanged |
| Results.BrowsePreviouses | app2.py:298-300 | Repeated Previous Book clicks keep the cursor valid and the results unchanged |
| Results.BrowseNextsClamp | app2.py:304-306 | k Next Book clicks move min(k, last - cursor) places: the cursor saturates and does not wrap |
| Results.BrowsePreviousesClamp | app2.py:298-300 | k Previous Book clicks move min(k, cursor) places: the cursor saturates at the first result |
| Display.ResultBlurb | app.py:197-199 | A blurb longer than the limit becomes its first limit-3 characters plus "...", exactly limit long. A shorter one is unchanged. A missing blurb makes `len` raise |
| Display.ShowCallNumber | app.py:203 | The call number is printed exactly when the column exists, the value is not NaN and it is non-empty |
| Display.ShownAfterCsvIff | app2.py:292 | For a value that went through `books.csv`, the guard fires exactly when the value is not a missing-value marker |
| Text.Strip | fetchdata.py:76 | `strip()` leaves a contiguous piece of the input with no whitespace at either end. Everything cut off on either side is whitespace |
| Text.StripReplaceSpace | fetchdata.py:127 | Replacing one whitespace character by another commutes with stripping |
| Text.StripSameSpaces | fetchdata.py:127 | Two strings with whitespace at the same positions strip to the same range of positions |
| Text.StripEmptyIff | app.py:159 | `query.strip()` is empty exactly when the query is all whitespace |
| Text.StripIdempotent | fetchdata.py:127 | Stripping twice is stripping once |
| Text.StripKeepsAbsent | fetchdata.py:127 | Stripping introduces no character |
| Text.StripKeepsStripped | fetchdata.py:76 | A string without surrounding whitespace is its own strip |
| Text.Lower | fetchdata.py:35 | `lower()` keeps the length, maps each upper-case letter to its lower-case form and leaves every other character alone |
| Text.ReplaceChar | fetchdata.py:35 | `replace(a, b)` rewrites every `a` to `b` and nothing else. No `a` is left |
| Text.Join | fetchdata.py:115 | `', '.join(parts)` has the parts' total length plus one separator between neighbours. It is the first part, then the separator and the join of the rest when there is more than one part |
| Text.Decimal | fetchdata.py:156 | `str(idx)` is a non-empty run of digits without a leading zero |
| Text.DecimalRoundTrip | fetchdata.py:156 | The digits of `str(idx)` read back as `idx` |
| Text.Ellipsize | app2.py:287-289 | The cut is never longer than the limit. A short text is unchanged, and a long one is its prefix plus "..." |
| Text.EllipsizeKeepsAbsent | fetchdata.py:130-131 | The cut adds only dots, so a character other than '.' that was absent stays absent |
| Text.EllipsizeIdempotent | fetchdata.py:130-131 | Cutting an already cut text changes nothing |
| Seqs.Filter | fetchdata.py:155 | The filter keeps exactly the elements that pass, never more than it was given |
| Seqs.FilterAppend | app2.py:261 | Filtering a concatenation filters each part in order |
| Seqs.FilterAllKept | fetchdata.py:155 | A sequence whose elements all pass is kept whole |
| Seqs.FilterSameOnSurvivors | app.py:175 | Two tests that agree on every element keep the same elements |
| Ingest.NormalizeColumn | fetchdata.py:35 | A normalised header is the stripped header, character by character: a space becomes `_` and every other character is lower-cased. So it has no space and no upper-case letter |
| Ingest.NormalizeColumnsAsWritten | fetchdata.py:35-41 | Normalisation followed by the `'call no'` rename as written keeps one name per column |
| Ingest.RenameAsWrittenIsDead | fetchdata.py:38-41 | The rename as written never applies to a normalised header |
| Ingest.CallNoNormalizes | fetchdata.py:35-48 | A "Call No" header, the column the usage text names, normalises to "call_no" |
| Ingest.CallNumberColumnAsWritten | fetchdata.py:35-58 | As written, the call-number column is found exactly when some header already normalises to "call_number" |
| Ingest.Rename | fetchdata.py:38-41 | The intended rename maps "call_no" to "call_number" and nothing else |
| Ingest.NormalizeColumns | fetchdata.py:35-41 | The intended normalisation gives one column name per header: the normalised header, except that "call_no" becomes "call_number" |
| Ingest.CallNumberColumnIntended | fetchdata.py:38-58 | With the intended rename, a header normalising to "call_no" or "call_number" is recognised |
| Ingest.CheckColumns | fetchdata.py:52-58 | The run stops exactly when there is no `title` column. Otherwise it records which optional columns exist |
| Ingest.OptionalField | fetchdata.py:77-78 | An optional field is "" when its column is absent, and otherwise the stripped printed cell |
| Ingest.ReadRow | fetchdata.py:76-78 | Title, author and call number are the stripped printed cells. An author or call number whose column is absent is "" |
| Ingest.ReadRows | fetchdata.py:74-78 | Every input row is read in order, one set of fields per row |
| Ingest.SkippedIff | fetchdata.py:76-83 | A row is skipped exactly when its title cell is all whitespace or strips to "nan" |
| Ingest.SearchQuery | fetchdata.py:89-92 | The query is "title author" when the author is usable, and the title alone otherwise |
| Ingest.SearchQueryShape | fetchdata.py:89-92 | The query starts with the title. Something follows it exactly when the author is usable, and then it is one space and the author |
| Ingest.FirstIsbn | fetchdata.py:119-123 | It finds the first entry of type ISBN_13 or ISBN_10, or reports that there is none |
| Ingest.PickIsbn | fetchdata.py:118-123 | The ISBN is the identifier of the first ISBN entry in list order, and "" when there is none or no list |
| Ingest.OneLine | fetchdata.py:127 | The cleaned description has no line break and is never longer than the original |
| Ingest.OneLineOfStripped | fetchdata.py:127 | The cleaned description is the stripped description with each `\n` and `\r` turned into a space, character by character |
| Ingest.CleanBlurb | fetchdata.py:126-131 | The stored blurb is the cleaned description (or "No description available.") when that has at most 600 characters. Otherwise it is the cleaned description's first 597 characters plus "...". It has no line break |
| Ingest.CleanBlurbKeepsCleanText | fetchdata.py:126-131 | A one-line, stripped description of at most 600 characters is stored unchanged |
| Ingest.SafeTitle | fetchdata.py:155 | The safe title is the first 50 (or fewer) of the title's safe characters, in order |
| Ingest.SafeTitleKeepsSafe | fetchdata.py:155 | A title of at most 50 safe characters is kept whole |
| Ingest.CoverFilename | fetchdata.py:155-156 | The filename is the safe title, "_", the decimal row number `str(idx)` and ".jpg". It has no path separator |
| Ingest.CoverFilenamesDistinct | fetchdata.py:74-75 | Two different input rows never get the same cover filename |
| Ingest.NormalizeCallNumber | fetchdata.py:169 | The stored call number is the input when usable, "" otherwise, and never "nan" |
| Ingest.AuthorLine | fetchdata.py:114-115 | The stored author joins the found authors with ", ". With none found it is the input author when usable, else "Unknown Author" |
| Ingest.Assemble | fetchdata.py:113-171 | The record takes the found title (else the input title), the author line, the cleaned blurb (at most 600 characters) and the normalised call number |
| Ingest.AssembleIdentifiers | fetchdata.py:118-168 | The record's ISBN is the ISBN pick. It has a cover filename exactly when the save was reached, and that filename is built from the found title and the input row number |
| Ingest.AssembleWellStored | fetchdata.py:126-169 | Every assembled record has a blurb of at most 600 characters and a call number other than "nan" |
| Ingest.CountsPartition | fetchdata.py:80-181 | Every row is exactly one of skipped, recorded as a book or recorded as a failure, given that the progress save does not raise |
| Ingest.RecordedRows | fetchdata.py:80-181 | Lists, in increasing order, exactly the rows not skipped whose lookup found a volume (or, for failures, found none or raised) |
| Ingest.IngestPrefixBooks | fetchdata.py:74-171 | After any number of rows, the i-th book is the record built from the i-th row not skipped whose lookup found a volume, with its row number i + 1 |
| Ingest.IngestPrefixFailures | fetchdata.py:74-181 | After any number of rows, the i-th failure carries the title, author and call number of the i-th row not skipped whose lookup failed, with reason "Not found" or the exception text |
| Ingest.IngestPrefixClean | fetchdata.py:81-171 | With a builder that keeps records well stored, no stored call number is "nan", every stored blurb is within 600 characters, and no failure has a missing title |
| Ingest.IngestRows | fetchdata.py:74-184 | The loop stores one book per found row, built from that row, and one failure per other row not skipped, both in input order |
| Ingest.Ingest | fetchdata.py:35-184 | The run fails exactly when the normalised header has no title. Otherwise the books are the `Assemble` records of the found rows and the failures the other rows not skipped, in input order. There is at most one entry per row, every stored blurb is within 600 characters, no stored call number is "nan" and no failure has a missing title |
| Pipeline.ToBook | fetchdata.py:194-195 | A record comes back from `books.csv` field by field through pandas' missing-value markers, with a `call_number` column |
| Pipeline.ToCatalogue | bookindex.py:13 | The catalogue has one row per written record, in order |
| Pipeline.CallNumberShownIff | app.py:203 | End to end, a call number is displayed exactly when its stripped input is not a missing-value marker |
| Pipeline.TitleSurvives | bookindex.py:13 | A title that is not a missing-value marker is displayed as stored |
| Pipeline.StoredBlurbDisplay | app2.py:287-289 | A stored blurb is shown whole up to 500 characters. A longer one shows its first 497 characters and "...", so at most 103 stored characters are cut |
| BookIndex.ComposeText | bookindex.py:31 | The text is the printed title, " by ", the printed author, ". " and the printed blurb, in that order |
| BookIndex.ComposeTextOfPresentFields | bookindex.py:31 | With no missing field the text reads `title by author. blurb` |
| BookIndex.ComposeTexts | bookindex.py:29-32 | There is exactly one composed text per catalogue row, in row order |
| BookIndex.Build | bookindex.py:12-45 | A missing CSV and an empty catalogue abort. Otherwise the saved frame is the unreordered catalogue and index position i holds the vector of row i |
| BookIndex.Load | app.py:17-28 | Loading succeeds exactly when both files can be read and the sentence encoder can be constructed; a failure names the first of the three steps that fails, and the lengths are not compared |
| BookIndex.LoadAfterBuild | bookindex.py:44-45 | Loading what the builder saved gives back the built index and frame when the encoder loads, and fails with the encoder error when it does not |
| BookIndex.ResultsAreIndexedRows | bookindex.py:40-45 | Against a built index every result shown is the row whose text produced the vector matched |
| ClassicApp.Refresh | app.py:136-212 | A due rotation ends the refresh. Otherwise the carousel click is applied without touching the timer, and a search is answered exactly when the query has a non-whitespace character. A blank query only warns |
| ClassicApp.SearchArea | app.py:159-212 | The grid is shown exactly for a pressed button with a non-blank query, and the warning exactly for a blank one |
| ClassicApp.ClickLostWhenTimerDue | app.py:136-140 | A click made while a rotation is due has no effect |
| ClassicApp.Render | app.py:196-204 | A card's blurb is shown whole up to 200 characters and otherwise as its first 197 plus "...". Its call number is printed under the guard |
| ClassicApp.CarouselPanel | app.py:219-240 | The carousel panel shows a catalogue row and prints its call number under the guard |
| SplitApp.NewSession | app2.py:174-179 | A new session holds min(50, len(df)) books at position 0 and no search |
| SplitApp.ShowCurrent | app2.py:269-293 | The display branch shows the result under the cursor as "number / total". Its blurb is whole up to 500 characters and otherwise its first 497 plus "...", and the call number is under the guard |
| SplitApp.SearchColumn | app2.py:254-320 | A non-blank query stores a new search. Otherwise stored results are shown and the cursor buttons act. Otherwise a pressed button warns, and else the instructions show |
| SplitApp.Refresh | app2.py:181-236 | The timer runs first, then the carousel buttons (each restarting the timer), then the search column. The session stays valid |
| SplitApp.TimerPreemptsButtons | app2.py:181-184 | When a rotation is due, every event gives the same refresh and the stored results are untouched |
| SplitApp.BlankQueryNeverSearches | app2.py:254-310 | A blank query never changes the stored results. The warning appears exactly when no rotation is due and no results are stored |
| SplitApp.OnlyCarouselEventsMoveTheTimer | app2.py:224-236 | Only the carousel buttons move the timer, to now |
| SplitApp.RefreshKeepsResultsFrom | app2.py:261-272 | Stored results are always catalogue rows, so any shown result is one |

## Left out

- Streamlit rendering, CSS, layout and images are left out. So are the rerun mechanics, except that a rerun ends the refresh.
- The cover-file existence checks and placeholder images are left out, because they are filesystem I/O.
- Google Books requests, JSON parsing, rate-limit sleeps and progress prints are left out. A lookup is an input `Response`, and an exception raised before `books.append` is `Raised(reason)`.
- The image download, decode and resize (a float ratio) are reduced to the `Cover` outcome. Only whether the filename was chosen matters.
- The periodic progress save every 50 books and the `books_failed.csv` output are file writes and are left out.
- The progress save at fetchdata.py:173-177 runs inside the same `try`, after `books.append`. If it raises on a row whose number is a multiple of 50, that row ends up in both `books` and `failed`. The model assumes the save never raises, so `Ingest.CountsPartition` and `Ingest.IngestRows` do not cover that case.
- pandas' column type inference is left out. An all-digit `isbn` or `call_number` column would be read back as numbers; every written value is modelled as text.
- An empty `books` list is left out. It writes a CSV with no columns, which pandas cannot read back.
- The Excel input path is left out. Rows are modelled as maps from normalised column names to cells.
- SentenceTransformer and FAISS internals are left out. Whether the encoder can be constructed at start-up is an input to `BookIndex.Load`, the encoder itself is a function parameter, a FAISS answer is a hit sequence, and nearest-neighbour ranking is not modelled.
- The similarity score `1/(1+distance)` and its percentage are float arithmetic and are left out. Cards carry the distance only.
- `Text.Strip`, `Text.Lower` and `Text.IsAlnum` cover ASCII only. `Text.Strip` removes the ASCII characters `str.isspace` accepts, U+001C to U+001F included. Python's non-ASCII whitespace, case mapping and `isalnum` are not modelled.
- `time.time()` is a float read twice in app2.py's timer step. The model uses one integer timestamp per refresh.
- `search_time` in app2.py is stored and never read, so it is left out.
- `df.sample` randomness is an input permutation. The sample is its first `min(k, n)` entries.
- `BookIndex.Build` does not model the dimension check of `IndexFlatL2`. Vectors of different lengths are not rejected.
- `Ingest.IngestRows` takes the record builder as a parameter, and `Ingest.Ingest` passes `Ingest.Assemble`.
- A grid that raises part-way is modelled as no cards at all. Streamlit would already have drawn the cards of earlier ranks.
- Results.LayOutGrid: lays out the corrected grid, drawing a rank only when `0 <= position < len(df)`. The test at app.py:175 skips only `position >= len(df)`, so negative positions are drawn through `iloc`; that loop is `Results.LayOutGridAsWritten`.
- ClassicApp.SearchArea: shows the corrected grid `Results.Cards`. As written, the grid is `Results.CardsOfAsWritten`, which also draws a last-book card for each padding rank (-1).
- ClassicApp.Refresh: answers a search with the corrected `Results.Cards`, through `ClassicApp.SearchArea`. The as-written grid is `Results.CardsOfAsWritten`.
- Results.NewSearch: stores the corrected `Results.Rows`. As written, the results are `Results.RowsAsWritten`, which repeat the last book for each padding hit.
- SplitApp.SearchColumn: stores `Results.NewSearch`, the corrected rows. The as-written rows are `Results.RowsAsWritten`.
- SplitApp.Refresh: inherits the corrected rows through `SplitApp.SearchColumn`.
- BookIndex.ResultsAreIndexedRows: holds for the corrected `Results.Rows` only. As written, a padding hit shows the last book, which no matched vector names.
- Ingest.Ingest: takes rows keyed by the corrected `Ingest.NormalizeColumns`. As written, a `Call No` header is never renamed, and the call numbers are dropped (`Ingest.NormalizeColumnsAsWritten`, `Ingest.CallNumberColumnAsWritten`).

## Findings

| source | as written | input that shows it | evidently intended | confidence | as-written member | corrected member |
|---|---|---|---|---|---|---|
| app2.py:261 | `[df.iloc[i] for i in indices[0] if i < len(df)]` keeps FAISS's padding label -1 (the same test is at app.py:175, modelled by `Results.CardsOfAsWritten`, its loop `Results.LayOutGridAsWritten` and `Results.PaddingCardShowsLastBook`) | a catalogue of 3 books: `index.search(..., 5)` returns `[a, b, c, -1, -1]`, and `iloc[-1]` shows the last book twice more | keep only `0 <= i < len(df)` | not executed | Results.PaddingRepeatsLastBook | Results.PaddingDropped |
| fetchdata.py:38-41 | the rename key `'call no'` is looked up after normalisation, which already turned spaces into `_` | a header `call no`, the name the usage text at line 48 gives, becomes `call_no`, is never renamed, and every call number is dropped | rename `'call_no'` to `'call_number'` | not executed | Ingest.CallNumberColumnAsWritten | Ingest.CallNumberColumnIntended |

The front-end models (`SplitApp`, `ClassicApp`, `BookIndex.ResultsAreIndexedRows`) use the corrected filter `Results.Rows` and `Results.Cards`. `Ingest.Ingest` uses the corrected `Ingest.NormalizeColumns`.

=== FILE: bookindex.dfy ===
/**
 * The index builder: one composed text per catalogue row, one vector per
 * text, and the frame saved next to the index unreordered, so that index
 * position `i` names catalogue row `i`. The sentence encoder is a function
 * parameter; the FAISS index is the sequence of vectors in insertion order.
 */
module BookIndex {
  import opened Wrappers
  import opened Catalogue
  import Results

  /** `f"{row['title']} by {row['author']}. {row['blurb']}"`: each field printed as pandas prints it. */
  function ComposeText(b: Book): (r: string)
    ensures var t, a, bl := CellStr(b.title), CellStr(b.author), CellStr(b.blurb);
      && |r| == |t| + |a| + |bl| + 6
      && r[..|t|] == t
      && r[|t|..|t| + 4] == " by "
      && r[|t| + 4..|t| + 4 + |a|] == a
      && r[|t| + 4 + |a|..|t| + 6 + |a|] == ". "
      && r[|t| + 6 + |a|..] == bl
  {
    CellStr(b.title) + " by " + CellStr(b.author) + ". " + CellStr(b.blurb)
  }

  /** A text whose fields hold no missing values reads back the three fields in order. */
  lemma ComposeTextOfPresentFields(b: Book)
    requires b.title.Str? && b.author.Str? && b.blurb.Str?
    ensures ComposeText(b) == b.title.s + " by " + b.author.s + ". " + b.blurb.s
  {
  }

  /** The loop over `df.iterrows()` that fills `texts`. */
  method ComposeTexts(df: seq<Book>) returns (texts: seq<string>)
    ensures |texts| == |df|
    ensures forall i :: 0 <= i < |df| ==> texts[i] == ComposeText(df[i])
  {
    texts := [];
    var i := 0;
    while i < |df|
      invariant 0 <= i <= |df|
      invariant |texts| == i
      invariant forall j :: 0 <= j < i ==> texts[j] == ComposeText(df[j])
    {
      texts := texts + [ComposeText(df[i])];
      i := i + 1;
    }
  }

  /** One embedding. */
  type Vector = seq<real>

  /** What the builder writes: the index's vectors (`books.index`) and the frame (`books.pkl`). */
  datatype Artifacts = Artifacts(vectors: seq<Vector>, frame: seq<Book>)

  /** The artifacts as a builder leaves them: index position `i` holds the vector of row `i`'s text. */
  predicate Matched(a: Artifacts, encode: string -> Vector) {
    && |a.vectors| == |a.frame|
    && forall i :: 0 <= i < |a.frame| ==> a.vectors[i] == encode(ComposeText(a.frame[i]))
  }

  /** `data/books.csv` is missing (the script exits before loading the encoder), or the catalogue
      is empty (the embedding array has no second dimension and line 38 raises before any write). */
  datatype BuildError = MissingCatalogue | EmptyCatalogue

  /** The whole builder. `csv` is `None` when `data/books.csv` does not exist. */
  method Build(csv: Option<seq<Book>>, encode: string -> Vector) returns (r: Result<Artifacts, BuildError>)
    ensures csv.None? <==> r == Failure(MissingCatalogue)
    ensures csv.Some? && |csv.value| == 0 <==> r == Failure(EmptyCatalogue)
    ensures r.Success? ==> r.value.frame == csv.value && Matched(r.value, encode)
  {
    if csv.None? {
      return Failure(MissingCatalogue);
    }
    var df := csv.value;
    var texts := ComposeTexts(df);
    if |texts| == 0 {
      return Failure(EmptyCatalogue);
    }
    var vectors := seq(|texts|, i requires 0 <= i < |texts| => encode(texts[i]));
    r := Success(Artifacts(vectors, df));
  }

  /** The front-ends fail to start when either file cannot be read or the sentence encoder cannot be
      constructed: all three happen inside the same bare `try`, and any failure shows one error. */
  datatype LoadError = IndexUnreadable | FrameUnreadable | EncoderUnavailable

  /** `load_resources`: the index, then the frame, then the encoder (`encoderLoads` says whether
      constructing it succeeds, which needs the model files or the network). The lengths of the
      index and the frame are not compared. */
  function Load(index: Option<seq<Vector>>, frame: Option<seq<Book>>, encoderLoads: bool): (r: Result<Artifacts, LoadError>)
    ensures r.Success? <==> index.Some? && frame.Some? && encoderLoads
    ensures index.None? ==> r == Failure(IndexUnreadable)
    ensures index.Some? && frame.None? ==> r == Failure(FrameUnreadable)
    ensures index.Some? && frame.Some? && !encoderLoads ==> r == Failure(EncoderUnavailable)
    ensures r.Success? ==> r.value.vectors == index.value && r.value.frame == frame.value
  {
    if index.None? then Failure(IndexUnreadable)
    else if frame.None? then Failure(FrameUnreadable)
    else if !encoderLoads then Failure(EncoderUnavailable)
    else Success(Artifacts(index.value, frame.value))
  }

  /** Loading what the builder wrote gives back exactly the built artifacts once the encoder loads,
      and even readable files do not start a front-end whose encoder fails. */
  lemma LoadAfterBuild(a: Artifacts, encoderLoads: bool)
    ensures encoderLoads ==> Load(Some(a.vectors), Some(a.frame), encoderLoads) == Success(a)
    ensures !encoderLoads ==> Load(Some(a.vectors), Some(a.frame), encoderLoads) == Failure(EncoderUnavailable)
  {
  }

  /** Against matched artifacts every result a front-end shows is the row whose composed text
      produced the vector the search matched. */
  lemma ResultsAreIndexedRows(a: Artifacts, encode: string -> Vector, hits: seq<Results.Hit>)
    requires Matched(a, encode)
    ensures var kept := Results.Kept(hits, |a.frame|);
      var rows := Results.Rows(a.frame, hits);
      forall j :: 0 <= j < |rows| ==>
        0 <= kept[j].position < |a.vectors| && encode(ComposeText(rows[j])) == a.vectors[kept[j].position]
  {
    var kept := Results.Kept(hits, |a.frame|);
    var rows := Results.Rows(a.frame, hits);
    forall j | 0 <= j < |rows|
      ensures 0 <= kept[j].position < |a.vectors| && encode(ComposeText(rows[j])) == a.vectors[kept[j].position]
    {
      assert kept[j] in kept;
    }
  }
}

=== FILE: carousel.dfy ===
/**
 * The "Discover" carousel both front-ends keep in the session: a frozen sample
 * of catalogue rows, a position in it and the time of the last rotation.
 * One refresh first runs the timer check; a rotation ends the refresh (the
 * script reruns), otherwise a Previous/Next click, if any, is applied.
 */
module Carousel {
  import opened Wrappers

  /** The three knobs on which the two front-ends differ. */
  datatype Config = Config(sampleSize: nat, interval: int, manualResetsTimer: bool)

  /** app.py: 20 books, rotate after more than 5 s, clicks leave the timer alone. */
  const Classic := Config(20, 5, false)

  /** app2.py: 50 books, rotate after more than 15 s, clicks restart the timer. */
  const Split := Config(50, 15, true)

  /** `books` are catalogue row numbers in sample order (`carousel_books`), `position` is `carousel_index`. */
  datatype State = State(books: seq<nat>, position: int, lastRotation: int)

  /** The position addresses a book of a non-empty sample, so `iloc[carousel_index]` cannot fail. */
  predicate Valid(s: State) {
    |s.books| >= 1 && 0 <= s.position < |s.books|
  }

  /** Position of the book after `p` in a ring of `n`, written without `%`. */
  function Succ(p: int, n: int): int {
    if p + 1 < n then p + 1 else 0
  }

  /** Position of the book before `p` in a ring of `n`, written without `%`. */
  function Pred(p: int, n: int): int {
    if p > 0 then p - 1 else n - 1
  }

  /** A random order of all row numbers of a catalogue of `size` rows: the source of `df.sample`. */
  predicate IsShuffle(order: seq<nat>, size: nat) {
    && |order| == size
    && (forall i :: 0 <= i < |order| ==> order[i] < size)
    && (forall i, j :: 0 <= i < j < |order| ==> order[i] != order[j])
  }

  function Min(a: nat, b: nat): nat {
    if a <= b then a else b
  }

  /** The only way session creation can fail: an empty catalogue leaves nothing to show and the first `iloc[0]` raises. */
  datatype InitError = EmptyCatalogue

  /** Session creation: position 0, the timer starting now, and `min(sampleSize, catalogueSize)`
      distinct rows drawn without replacement (the first rows of the random order). */
  function Init(cfg: Config, catalogueSize: nat, shuffle: seq<nat>, now: int): (r: Result<State, InitError>)
    requires cfg.sampleSize >= 1
    requires IsShuffle(shuffle, catalogueSize)
    ensures r.Failure? <==> catalogueSize == 0
    ensures r.Success? ==> Valid(r.value)
    ensures r.Success? ==> r.value.position == 0 && r.value.lastRotation == now
    ensures r.Success? ==> |r.value.books| == Min(cfg.sampleSize, catalogueSize)
    ensures r.Success? ==> forall i :: 0 <= i < |r.value.books| ==> r.value.books[i] < catalogueSize
    ensures r.Success? ==> forall i, j :: 0 <= i < j < |r.value.books| ==> r.value.books[i] != r.value.books[j]
  {
    if catalogueSize == 0 then Failure(EmptyCatalogue)
    else Success(State(shuffle[..Min(cfg.sampleSize, catalogueSize)], 0, now))
  }

  /** Every sampled row number names a row of a catalogue of `size` rows. */
  predicate InCatalogue(s: State, size: nat) {
    forall i :: 0 <= i < |s.books| ==> s.books[i] < size
  }

  /** `carousel_books.iloc[carousel_index]`: the row the carousel shows. */
  function Current<T>(rows: seq<T>, s: State): (r: T)
    requires Valid(s) && InCatalogue(s, |rows|)
    ensures r in rows
  {
    rows[s.books[s.position]]
  }

  /** The rotation test: strictly more than the interval since the last rotation. */
  predicate TimerFires(cfg: Config, s: State, now: int) {
    now - s.lastRotation > cfg.interval
  }

  /** The timer check at the top of every refresh. */
  function TimerStep(cfg: Config, s: State, now: int): (r: State)
    requires Valid(s)
    ensures Valid(r) && r.books == s.books
    ensures TimerFires(cfg, s, now) ==> r.position == Succ(s.position, |s.books|) && r.lastRotation == now
    ensures !TimerFires(cfg, s, now) ==> r == s
  {
    if now - s.lastRotation > cfg.interval then
      s.(position := (s.position + 1) % |s.books|, lastRotation := now)
    else s
  }

  /** The Previous button: one book back, wrapping from the first to the last. */
  function Previous(cfg: Config, s: State, now: int): (r: State)
    requires Valid(s)
    ensures Valid(r) && r.books == s.books
    ensures r.position == Pred(s.position, |s.books|)
    ensures cfg.manualResetsTimer ==> r.lastRotation == now
    ensures !cfg.manualResetsTimer ==> r.lastRotation == s.lastRotation
  {
    s.(position := (s.position - 1) % |s.books|,
       lastRotation := if cfg.manualResetsTimer then now else s.lastRotation)
  }

  /** The Next button: one book on, wrapping from the last to the first. */
  function Next(cfg: Config, s: State, now: int): (r: State)
    requires Valid(s)
    ensures Valid(r) && r.books == s.books
    ensures r.position == Succ(s.position, |s.books|)
    ensures cfg.manualResetsTimer ==> r.lastRotation == now
    ensures !cfg.manualResetsTimer ==> r.lastRotation == s.lastRotation
  {
    s.(position := (s.position + 1) % |s.books|,
       lastRotation := if cfg.manualResetsTimer then now else s.lastRotation)
  }

  /** Which carousel button, if any, was clicked in this refresh. */
  datatype Click = NoClick | PrevClick | NextClick

  /** One refresh of the carousel: the timer check runs first and, when it
      rotates, ends the refresh, so a click made in the same refresh is lost. */
  function Refresh(cfg: Config, s: State, now: int, click: Click): (r: State)
    requires Valid(s)
    ensures Valid(r) && r.books == s.books
    ensures TimerFires(cfg, s, now) ==> r == TimerStep(cfg, s, now)
    ensures !TimerFires(cfg, s, now) && click.PrevClick? ==> r == Previous(cfg, s, now)
    ensures !TimerFires(cfg, s, now) && click.NextClick? ==> r == Next(cfg, s, now)
    ensures !TimerFires(cfg, s, now) && click.NoClick? ==> r == s
  {
    if TimerFires(cfg, s, now) then TimerStep(cfg, s, now)
    else match click
      case NoClick => s
      case PrevClick => Previous(cfg, s, now)
      case NextClick => Next(cfg, s, now)
  }

  /** One refresh: its time and the click it carries. */
  datatype Tick = Tick(now: int, click: Click)

  /** A whole session: refreshes applied in order. */
  function Run(cfg: Config, s: State, ticks: seq<Tick>): (r: State)
    requires Valid(s)
    ensures Valid(r)
    ensures r.books == s.books
    decreases |ticks|
  {
    if |ticks| == 0 then s
    else Run(cfg, Refresh(cfg, s, ticks[0].now, ticks[0].click), ticks[1..])
  }

  /** `k` Next clicks in a row, at the given times. */
  function Nexts(cfg: Config, s: State, times: seq<int>): (r: State)
    requires Valid(s)
    ensures Valid(r) && r.books == s.books
    decreases |times|
  {
    if |times| == 0 then s else Nexts(cfg, Next(cfg, s, times[0]), times[1..])
  }

  /** After `k <= n` Next clicks the position has moved `k` places around the ring. */
  lemma {:induction false} NextsMove(cfg: Config, s: State, times: seq<int>)
    requires Valid(s)
    requires |times| <= |s.books|
    ensures Nexts(cfg, s, times).position ==
      if s.position + |times| < |s.books| then s.position + |times|
      else s.position + |times| - |s.books|
    decreases |times|
  {
    if |times| > 0 {
      NextsMove(cfg, Next(cfg, s, times[0]), times[1..]);
    }
  }

  /** Clicking Next once per book brings the carousel back to where it started. */
  lemma NextsCycle(cfg: Config, s: State, times: seq<int>)
    requires Valid(s)
    requires |times| == |s.books|
    ensures Nexts(cfg, s, times).position == s.position
  {
    NextsMove(cfg, s, times);
  }

  /** Previous undoes Next and Next undoes Previous. */
  lemma PreviousUndoesNext(cfg: Config, s: State, t1: int, t2: int)
    requires Valid(s)
    ensures Previous(cfg, Next(cfg, s, t1), t2).position == s.position
    ensures Next(cfg, Previous(cfg, s, t1), t2).position == s.position
  {
  }

  /** Whatever happens after session creation, the carousel still shows a row of the catalogue:
      the `iloc` lookups of both front-ends never fail. */
  lemma SessionAlwaysShowsARow(cfg: Config, size: nat, shuffle: seq<nat>, now: int, ticks: seq<Tick>)
    requires cfg.sampleSize >= 1
    requires IsShuffle(shuffle, size)
    requires size > 0
    ensures var s := Run(cfg, Init(cfg, size, shuffle, now).value, ticks);
      Valid(s) && InCatalogue(s, size)
  {
  }

  /** In app2.py a click restarts the interval: no rotation for the next 15 s. */
  lemma SplitClickRestartsTimer(s: State, now: int, later: int, click: Click)
    requires Valid(s)
    requires !click.NoClick?
    requires !TimerFires(Split, s, now)
    requires later <= now + Split.interval
    ensures TimerStep(Split, Refresh(Split, s, now, click), later) == Refresh(Split, s, now, click)
  {
  }

  /** In app.py a click does not touch the timer: a rotation that is due later is not postponed,
      so after a Next click the next due refresh moves a second book. */
  lemma ClassicClickKeepsTimer(s: State, now: int, later: int, click: Click)
    requires Valid(s)
    requires !click.NoClick?
    requires !TimerFires(Classic, s, now)
    requires TimerFires(Classic, s, later)
    ensures var clicked := Refresh(Classic, s, now, click);
      && clicked.lastRotation == s.lastRotation
      && TimerStep(Classic, clicked, later).position == Succ(clicked.position, |s.books|)
      && TimerStep(Classic, clicked, later).lastRotation == later
    ensures click.NextClick? ==>
      TimerStep(Classic, Refresh(Classic, s, now, click), later).position
        == Succ(Succ(s.position, |s.books|), |s.books|)
  {
  }
}

=== FILE: catalogue.dfy ===
/**
 * The catalogue as the front-ends hold it: the rows of `data/books.csv`,
 * read back by pandas and pickled unchanged by the index builder.
 */
module Catalogue {
  import opened Wrappers

  /** One pandas cell: a missing value (NaN) or a piece of text. */
  datatype Cell = NaN | Str(s: string)

  /** One catalogue row. `callNumber` is `None` when the frame has no `call_number` column. */
  datatype Book = Book(
    title: Cell,
    author: Cell,
    blurb: Cell,
    isbn: Cell,
    callNumber: Option<Cell>,
    coverFilename: Cell)

  /** `str(cell)` / an f-string interpolation: a missing value prints as "nan". */
  function CellStr(c: Cell): (r: string)
    ensures c.Str? ==> r == c.s
    ensures c.NaN? ==> r == "nan"
  {
    match c
    case NaN => "nan"
    case Str(s) => s
  }

  /** The strings `pandas.read_csv` turns into NaN by default. */
  const NaMarkers: set<string> := {
    "", "#N/A", "#N/A N/A", "#NA", "-1.#IND", "-1.#QNAN", "-NaN", "-nan",
    "1.#IND", "1.#QNAN", "<NA>", "N/A", "NA", "NULL", "NaN", "None", "n/a",
    "nan", "null"
  }

  /** A string written to CSV and read back by pandas: NA markers come back missing, everything else unchanged. */
  function CsvCell(s: string): (r: Cell)
    ensures r.NaN? <==> s in NaMarkers
    ensures r.Str? ==> r.s == s
  {
    if s in NaMarkers then NaN else Str(s)
  }

  /** A value that is not an NA marker prints back as it was written, and so does the literal "nan". */
  lemma CsvPrintsBack(s: string)
    requires s !in NaMarkers || s == "nan"
    ensures CellStr(CsvCell(s)) == s
  {
  }

  /** `df.iloc[i]` with Python's negative indexing; `None` is the IndexError. */
  function ILoc<T>(rows: seq<T>, i: int): (r: Option<T>)
    ensures r.Some? <==> -|rows| <= i < |rows|
    ensures 0 <= i < |rows| ==> r == Some(rows[i])
    ensures -|rows| <= i < 0 ==> r == Some(rows[|rows| + i])
  {
    if 0 <= i < |rows| then Some(rows[i])
    else if -|rows| <= i < 0 then Some(rows[|rows| + i])
    else None
  }
}

=== FILE: classic_app.dfy ===
/**
 * One refresh of app.py: the timer check, then the search area, then the
 * carousel and its buttons. Search results are not kept in the session; an
 * answer is laid out as a grid of cards in the refresh that asked for it.
 */
module ClassicApp {
  import opened Wrappers
  import opened Catalogue
  import Text
  import Carousel
  import Results
  import Display

  /** The one widget event a refresh carries. */
  datatype Event =
    | Idle
    | SearchClick(query: string, hits: seq<Results.Hit>)
    | PrevClick
    | NextClick

  /** What the search area shows. */
  datatype SearchView = NoSearch | Matches(cards: seq<Results.Card>) | BlankQueryWarning

  /** The refresh's outcome: the new carousel, whether the timer rotated (the refresh ended
      there), and the search area. */
  datatype Page = Page(carousel: Carousel.State, rotated: bool, search: SearchView)

  /** The carousel part of an event. */
  function ClickOf(e: Event): (c: Carousel.Click)
    ensures c.PrevClick? <==> e.PrevClick?
    ensures c.NextClick? <==> e.NextClick?
  {
    match e
    case PrevClick => Carousel.PrevClick
    case NextClick => Carousel.NextClick
    case _ => Carousel.NoClick
  }

  /** One refresh of app.py. The search is answered only for a query with a non-whitespace
      character; a rotation ends the refresh before the search area is reached. */
  function Refresh(df: seq<Book>, s: Carousel.State, now: int, e: Event): (p: Page)
    requires Carousel.Valid(s)
    ensures Carousel.Valid(p.carousel) && p.carousel.books == s.books
    ensures p.rotated <==> Carousel.TimerFires(Carousel.Classic, s, now)
    ensures p.carousel == Carousel.Refresh(Carousel.Classic, s, now, ClickOf(e))
    ensures p.search.Matches? <==> !p.rotated && e.SearchClick? && !Text.AllSpace(e.query)
    ensures p.search.Matches? ==> p.search.cards == Results.Cards(df, e.hits)
    ensures p.search.BlankQueryWarning? <==> !p.rotated && e.SearchClick? && Text.AllSpace(e.query)
    ensures !p.rotated ==> p.carousel.lastRotation == s.lastRotation
  {
    if Carousel.TimerFires(Carousel.Classic, s, now) then
      Page(Carousel.TimerStep(Carousel.Classic, s, now), true, NoSearch)
    else
      Page(Carousel.Refresh(Carousel.Classic, s, now, ClickOf(e)), false, SearchArea(df, e))
  }

  /** The search area of a refresh the timer did not end: `if search_button and query.strip()`,
      then `elif search_button`. */
  function SearchArea(df: seq<Book>, e: Event): (v: SearchView)
    ensures v.Matches? <==> e.SearchClick? && !Text.AllSpace(e.query)
    ensures v.Matches? ==> v.cards == Results.Cards(df, e.hits)
    ensures v.BlankQueryWarning? <==> e.SearchClick? && Text.AllSpace(e.query)
  {
    if !e.SearchClick? then NoSearch
    else
      Text.StripEmptyIff(e.query);
      if Text.Strip(e.query) != "" then Matches(Results.Cards(df, e.hits)) else BlankQueryWarning
  }

  /** A click made while a rotation is due is lost: the refresh is the same as one without it. */
  lemma ClickLostWhenTimerDue(df: seq<Book>, s: Carousel.State, now: int, e: Event)
    requires Carousel.Valid(s)
    requires Carousel.TimerFires(Carousel.Classic, s, now)
    ensures Refresh(df, s, now, e) == Refresh(df, s, now, Idle)
  {
  }

  /** The carousel panel and each result card print their book's call number under the same
      guard; a card's blurb is cut at 200 characters, and a missing blurb makes `len` raise. */
  datatype RenderedCard = RenderedCard(card: Results.Card, blurb: Option<string>, callNumberShown: bool)

  function Render(c: Results.Card): (r: RenderedCard)
    ensures r.card == c
    ensures r.blurb.Some? <==> c.book.blurb.Str?
    ensures r.blurb.Some? ==> |r.blurb.value| <= Display.ClassicBlurbLimit
    ensures c.book.blurb.Str? && |c.book.blurb.s| <= Display.ClassicBlurbLimit ==> r.blurb == Some(c.book.blurb.s)
    ensures c.book.blurb.Str? && |c.book.blurb.s| > Display.ClassicBlurbLimit ==>
      r.blurb == Some(c.book.blurb.s[..Display.ClassicBlurbLimit - 3] + "...")
    ensures r.callNumberShown <==>
      c.book.callNumber.Some? && c.book.callNumber.value.Str? && c.book.callNumber.value.s != ""
  {
    RenderedCard(c, Display.ResultBlurb(c.book.blurb, Display.ClassicBlurbLimit),
                 Display.ShowCallNumber(c.book.callNumber))
  }

  /** The book the carousel panel shows and whether its call number is printed. */
  function CarouselPanel(df: seq<Book>, s: Carousel.State): (r: (Book, bool))
    requires Carousel.Valid(s) && Carousel.InCatalogue(s, |df|)
    ensures r.0 in df
    ensures r.1 <==> r.0.callNumber.Some? && r.0.callNumber.value.Str? && r.0.callNumber.value.s != ""
  {
    var b := Carousel.Current(df, s);
    (b, Display.ShowCallNumber(b.callNumber))
  }
}

=== FILE: display.dfy ===
/**
 * The two presentation rules that have content: blurbs are cut to a
 * per-front-end length, and a call number is printed only when the row really
 * has one.
 */
module Display {
  import opened Wrappers
  import opened Catalogue
  import Text

  /** app.py cuts result blurbs at 200 characters. */
  const ClassicBlurbLimit := 200

  /** app2.py cuts result blurbs at 500 characters. */
  const SplitBlurbLimit := 500

  /** The blurb as a result card prints it: `blurb[:limit - 3] + "..."` when longer than `limit`.
      A missing blurb is a float NaN in pandas, and `len` of it raises (`None`). */
  function ResultBlurb(blurb: Cell, limit: nat): (r: Option<string>)
    requires limit >= 3
    ensures r.Some? <==> blurb.Str?
    ensures r.Some? ==> |r.value| <= limit
    ensures r.Some? && |blurb.s| <= limit ==> r.value == blurb.s
    ensures r.Some? && |blurb.s| > limit ==>
      |r.value| == limit && r.value[..limit - 3] == blurb.s[..limit - 3] && r.value[limit - 3..] == "..."
  {
    match blurb
    case NaN => None
    case Str(s) => Some(Text.Ellipsize(s, limit))
  }

  /** The guard `'call_number' in book and pd.notna(book['call_number']) and book['call_number']`. */
  function ShowCallNumber(callNumber: Option<Cell>): (r: bool)
    ensures r ==> callNumber.Some? && callNumber.value.Str? && callNumber.value.s != ""
    ensures callNumber.Some? && callNumber.value.Str? && callNumber.value.s != "" ==> r
  {
    match callNumber
    case None => false
    case Some(NaN) => false
    case Some(Str(s)) => s != ""
  }

  /** Once a value has been through `books.csv`, the guard prints it exactly when it is not one of
      pandas' missing-value markers: the empty-string test alone never fires after a CSV round trip. */
  lemma ShownAfterCsvIff(s: string)
    ensures ShowCallNumber(Some(CsvCell(s))) <==> s !in NaMarkers
  {
  }
}

=== FILE: ingest.dfy ===
/**
 * The pure steps of the ingestion script: header normalisation, reading and
 * skipping input rows, composing the lookup query, and turning one looked-up
 * volume into a catalogue record. The HTTP lookups and the cover download are
 * inputs (`Response`, `Cover`).
 */
module Ingest {
  import opened Wrappers
  import opened Text
  import opened Catalogue
  import Seqs

  // ----- Header names -----

  /** `str.strip().str.lower().str.replace(' ', '_')` on one header. */
  function NormalizeColumn(name: string): (r: string)
    ensures ' ' !in r
    ensures |r| == |Strip(name)| <= |name|
    ensures forall i :: 0 <= i < |r| ==> !IsUpper(r[i])
    ensures forall i :: 0 <= i < |r| ==>
      r[i] == (if Strip(name)[i] == ' ' then '_' else LowerChar(Strip(name)[i]))
  {
    ReplaceChar(Lower(Strip(name)), ' ', '_')
  }

  /** The rename table as written: `{'call no': 'call_number'}`. */
  function RenameAsWritten(column: string): string {
    if column == "call no" then "call_number" else column
  }

  /** Header normalisation followed by the rename as written. */
  function NormalizeColumnsAsWritten(header: seq<string>): (r: seq<string>)
    ensures |r| == |header|
  {
    seq(|header|, i requires 0 <= i < |header| => RenameAsWritten(NormalizeColumn(header[i])))
  }

  /** A normalised header never contains a space, so the rename as written never applies. */
  lemma RenameAsWrittenIsDead(name: string)
    ensures RenameAsWritten(NormalizeColumn(name)) == NormalizeColumn(name)
  {
    assert "call no"[4] == ' ';
  }

  /** A "Call No" header, the column the script's usage text names, normalises to "call_no". */
  lemma CallNoNormalizes()
    ensures NormalizeColumn("Call No") == "call_no"
  {
    var s := "Call No";
    StripKeepsStripped(s);
    var l := Lower(s);
    assert l[0] == 'c' && l[1] == 'a' && l[2] == 'l' && l[3] == 'l';
    assert l[4] == ' ' && l[5] == 'n' && l[6] == 'o';
    var r := ReplaceChar(l, ' ', '_');
    assert r[0] == 'c' && r[1] == 'a' && r[2] == 'l' && r[3] == 'l' && r[4] == '_' && r[5] == 'n' && r[6] == 'o';
  }

  /** As written, the call-number column is recognised only under a header that already normalises
      to `call_number`; "Call No" (normalised "call_no") is not, and its call numbers are dropped. */
  lemma CallNumberColumnAsWritten(header: seq<string>)
    ensures "call_number" in NormalizeColumnsAsWritten(header) <==>
      exists i :: 0 <= i < |header| && NormalizeColumn(header[i]) == "call_number"
  {
    var r := NormalizeColumnsAsWritten(header);
    forall i | 0 <= i < |header|
      ensures r[i] == NormalizeColumn(header[i])
    {
      RenameAsWrittenIsDead(header[i]);
    }
  }

  /** The rename as intended: the normalised form of "call no" becomes `call_number`. */
  function Rename(column: string): (r: string)
    ensures column == "call_no" ==> r == "call_number"
    ensures column != "call_no" ==> r == column
  {
    if column == "call_no" then "call_number" else column
  }

  /** Header normalisation followed by the intended rename. */
  function NormalizeColumns(header: seq<string>): (r: seq<string>)
    ensures |r| == |header|
    ensures forall i :: 0 <= i < |header| && NormalizeColumn(header[i]) == "call_no" ==> r[i] == "call_number"
    ensures forall i :: 0 <= i < |header| && NormalizeColumn(header[i]) != "call_no" ==> r[i] == NormalizeColumn(header[i])
  {
    seq(|header|, i requires 0 <= i < |header| => Rename(NormalizeColumn(header[i])))
  }

  /** With the intended rename, a header normalising to "call_no" is recognised as well. */
  lemma CallNumberColumnIntended(header: seq<string>)
    ensures "call_number" in NormalizeColumns(header) <==>
      exists i :: 0 <= i < |header| && NormalizeColumn(header[i]) in {"call_number", "call_no"}
  {
    var r := NormalizeColumns(header);
    if "call_number" in r {
      var i :| 0 <= i < |r| && r[i] == "call_number";
      assert NormalizeColumn(header[i]) in {"call_number", "call_no"};
    }
    if exists i :: 0 <= i < |header| && NormalizeColumn(header[i]) in {"call_number", "call_no"} {
      var i :| 0 <= i < |header| && NormalizeColumn(header[i]) in {"call_number", "call_no"};
      assert r[i] == "call_number";
    }
  }

  // ----- Required and optional columns -----

  /** Which optional columns the input has. */
  datatype Columns = Columns(hasAuthor: bool, hasCallNumber: bool)

  /** The script stops before any lookup when there is no `title` column. */
  datatype IngestError = NoTitleColumn

  function CheckColumns(columns: seq<string>): (r: Result<Columns, IngestError>)
    ensures r.Failure? <==> "title" !in columns
    ensures r.Success? ==> r.value.hasAuthor == ("author" in columns)
    ensures r.Success? ==> r.value.hasCallNumber == ("call_number" in columns)
  {
    if "title" !in columns then Failure(NoTitleColumn)
    else Success(Columns("author" in columns, "call_number" in columns))
  }

  // ----- Reading one input row -----

  /** An input row, keyed by normalised column name. */
  type Row = map<string, Cell>

  /** The stripped text of the three fields the script reads. */
  datatype RowFields = RowFields(title: string, author: string, callNumber: string)

  /** No whitespace at either end. */
  predicate Stripped(s: string) {
    |s| > 0 ==> !IsSpace(s[0]) && !IsSpace(s[|s| - 1])
  }

  /** `str(row.get(key, '')).strip()` when the column exists, "" when it does not. */
  function OptionalField(row: Row, key: string, present: bool): (r: string)
    ensures Stripped(r)
    ensures present && key in row ==> r == Strip(CellStr(row[key]))
    ensures !present || key !in row ==> r == ""
  {
    if !present then ""
    else if key in row then Strip(CellStr(row[key]))
    else ""
  }

  function ReadRow(row: Row, columns: Columns): (r: RowFields)
    requires "title" in row
    ensures r.title == Strip(CellStr(row["title"]))
    ensures Stripped(r.title) && Stripped(r.author) && Stripped(r.callNumber)
    ensures columns.hasAuthor && "author" in row ==> r.author == Strip(CellStr(row["author"]))
    ensures !columns.hasAuthor || "author" !in row ==> r.author == ""
    ensures columns.hasCallNumber && "call_number" in row ==> r.callNumber == Strip(CellStr(row["call_number"]))
    ensures !columns.hasCallNumber || "call_number" !in row ==> r.callNumber == ""
  {
    RowFields(
      Strip(CellStr(row["title"])),
      OptionalField(row, "author", columns.hasAuthor),
      OptionalField(row, "call_number", columns.hasCallNumber))
  }

  /** The script's test for a usable text field: non-empty and not the printed NaN. */
  predicate Present(s: string) {
    s != "" && s != "nan"
  }

  /** A row is skipped, and recorded nowhere, when its title is missing; a NaN title prints as "nan". */
  predicate Skipped(f: RowFields) {
    !Present(f.title)
  }

  /** A blank or NaN title cell is always skipped; a title with a visible character other than "nan" is not. */
  lemma SkippedIff(row: Row, columns: Columns)
    requires "title" in row
    ensures Skipped(ReadRow(row, columns)) <==> (AllSpace(CellStr(row["title"])) || Strip(CellStr(row["title"])) == "nan")
  {
    StripEmptyIff(CellStr(row["title"]));
  }

  // ----- The lookup query -----

  /** `f"{title} {author}"` when the author is usable, the title alone otherwise. */
  function SearchQuery(f: RowFields): (r: string)
    ensures |r| >= |f.title| && r[..|f.title|] == f.title
    ensures Present(f.author) ==> r == f.title + " " + f.author
    ensures !Present(f.author) ==> r == f.title
  {
    if Present(f.author) then f.title + " " + f.author else f.title
  }

  /** The query always starts with the title, and something follows it exactly when the author is
      usable: then a single space and the author. */
  lemma SearchQueryShape(f: RowFields)
    ensures var q := SearchQuery(f);
      && q[..|f.title|] == f.title
      && (|q| > |f.title| <==> Present(f.author))
      && (Present(f.author) ==> q[|f.title|] == ' ' && q[|f.title| + 1..] == f.author)
  {
    var q := SearchQuery(f);
    if Present(f.author) {
      assert q[|f.title| + 1..] == f.author;
    }
  }

  // ----- One looked-up volume -----

  /** One entry of `industryIdentifiers`. */
  datatype Identifier = Identifier(kind: string, identifier: string)

  predicate IsIsbn(id: Identifier) {
    id.kind == "ISBN_13" || id.kind == "ISBN_10"
  }

  /** Index of the first ISBN entry, if any. */
  function FirstIsbn(ids: seq<Identifier>): (r: Option<nat>)
    ensures r.Some? ==> r.value < |ids| && IsIsbn(ids[r.value])
    ensures r.Some? ==> forall i :: 0 <= i < r.value ==> !IsIsbn(ids[i])
    ensures r.None? ==> forall i :: 0 <= i < |ids| ==> !IsIsbn(ids[i])
    decreases |ids|
  {
    if |ids| == 0 then None
    else if IsIsbn(ids[0]) then Some(0)
    else match FirstIsbn(ids[1..])
      case None => None
      case Some(k) => Some(k + 1)
  }

  /** The ISBN the loop with `break` stores: the identifier of the first ISBN-13 or ISBN-10 entry, else "". */
  function PickIsbn(ids: Option<seq<Identifier>>): (r: string)
    ensures ids.None? ==> r == ""
    ensures ids.Some? && (forall i :: 0 <= i < |ids.value| ==> !IsIsbn(ids.value[i])) ==> r == ""
    ensures ids.Some? ==> forall j ::
      (0 <= j < |ids.value| && IsIsbn(ids.value[j]) && (forall i :: 0 <= i < j ==> !IsIsbn(ids.value[i])))
      ==> r == ids.value[j].identifier
  {
    match ids
    case None => ""
    case Some(list) =>
      match FirstIsbn(list)
      case None => ""
      case Some(k) => list[k].identifier
  }

  /** The description stored when the volume has none. */
  const NoDescription := "No description available."

  /** Stored blurbs are cut at 600 characters. */
  const StoredBlurbLimit := 600

  /** Line breaks become spaces and the result is stripped. */
  function OneLine(raw: string): (r: string)
    ensures '\n' !in r && '\r' !in r
    ensures |r| <= |raw|
  {
    var once := ReplaceChar(ReplaceChar(raw, '\n', ' '), '\r', ' ');
    assert '\n' !in once;
    StripKeepsAbsent(once, '\n');
    StripKeepsAbsent(once, '\r');
    Strip(once)
  }

  /** The clean-up is the stripped description with each line break turned into a space. */
  lemma OneLineOfStripped(raw: string)
    ensures |OneLine(raw)| == |Strip(raw)|
    ensures forall i :: 0 <= i < |Strip(raw)| ==>
      OneLine(raw)[i] == (if Strip(raw)[i] == '\n' || Strip(raw)[i] == '\r' then ' ' else Strip(raw)[i])
  {
    var once := ReplaceChar(raw, '\n', ' ');
    StripReplaceSpace(raw, '\n', ' ');
    StripReplaceSpace(once, '\r', ' ');
  }

  /** `book_data.get('description', 'No description available.')`. */
  function DescriptionText(description: Option<string>): (r: string)
    ensures description.Some? ==> r == description.value
    ensures description.None? ==> r == NoDescription
  {
    match description case Some(d) => d case None => NoDescription
  }

  /** The stored blurb: the description (or a fixed text when there is none) on one stripped line,
      cut to 600 characters. */
  function CleanBlurb(description: Option<string>): (r: string)
    ensures |r| <= StoredBlurbLimit
    ensures '\n' !in r && '\r' !in r
    ensures |OneLine(DescriptionText(description))| <= StoredBlurbLimit ==> r == OneLine(DescriptionText(description))
    ensures |OneLine(DescriptionText(description))| > StoredBlurbLimit ==>
      r == OneLine(DescriptionText(description))[..StoredBlurbLimit - 3] + "..."
  {
    var raw := DescriptionText(description);
    var line := OneLine(raw);
    EllipsizeKeepsAbsent(line, StoredBlurbLimit, '\n');
    EllipsizeKeepsAbsent(line, StoredBlurbLimit, '\r');
    Ellipsize(line, StoredBlurbLimit)
  }

  /** A description that is already one stripped line of at most 600 characters is stored as it is. */
  lemma CleanBlurbKeepsCleanText(d: string)
    requires '\n' !in d && '\r' !in d
    requires Stripped(d)
    requires |d| <= StoredBlurbLimit
    ensures CleanBlurb(Some(d)) == d
  {
    StripKeepsStripped(d);
  }

  /** The characters a cover filename may keep. */
  predicate SafeChar(c: char) {
    IsAlnum(c) || c == ' ' || c == '-' || c == '_'
  }

  const SafeTitleLimit := 50

  /** `"".join(c for c in title if c.isalnum() or c in (' ', '-', '_'))[:50]`. */
  function SafeTitle(title: string): (r: string)
    ensures |r| <= SafeTitleLimit
    ensures forall i :: 0 <= i < |r| ==> SafeChar(r[i])
    ensures var kept := Seqs.Filter(title, SafeChar);
      |r| == (if |kept| <= SafeTitleLimit then |kept| else SafeTitleLimit) && r == kept[..|r|]
  {
    var kept := Seqs.Filter(title, SafeChar);
    assert forall i :: 0 <= i < |kept| ==> kept[i] in kept;
    kept[..if |kept| <= SafeTitleLimit then |kept| else SafeTitleLimit]
  }

  /** A title of at most 50 safe characters is its own safe title. */
  lemma SafeTitleKeepsSafe(title: string)
    requires |title| <= SafeTitleLimit
    requires forall i :: 0 <= i < |title| ==> SafeChar(title[i])
    ensures SafeTitle(title) == title
  {
    Seqs.FilterAllKept(title, SafeChar);
  }

  /** `f"{safe_title}_{idx}.jpg"`: no path separator can appear, so the file stays in the covers directory. */
  function CoverFilename(foundTitle: string, idx: nat): (r: string)
    ensures '/' !in r && '\\' !in r
    ensures |r| > |SafeTitle(foundTitle)| + 5
    ensures r[..|SafeTitle(foundTitle)| + 1] == SafeTitle(foundTitle) + "_"
    ensures r[|SafeTitle(foundTitle)| + 1..|r| - 4] == Decimal(idx)
    ensures r[|r| - 4..] == ".jpg"
  {
    var safe := SafeTitle(foundTitle);
    var digits := Decimal(idx);
    assert forall i :: 0 <= i < |digits| ==> digits[i] in digits;
    var r := safe + "_" + digits + ".jpg";
    assert forall i :: 0 <= i < |r| ==> r[i] != '/' && r[i] != '\\' by {
      forall i | 0 <= i < |r|
        ensures r[i] != '/' && r[i] != '\\'
      {
        if i < |safe| {
          assert SafeChar(safe[i]);
        } else if i == |safe| {
        } else if i < |safe| + 1 + |digits| {
          assert IsDigit(digits[i - |safe| - 1]);
        }
      }
    }
    r
  }

  /** How many decimal digits end `s`. */
  function TrailingDigits(s: string): (n: nat)
    ensures n <= |s|
    decreases |s|
  {
    if |s| == 0 || !IsDigit(s[|s| - 1]) then 0 else 1 + TrailingDigits(s[..|s| - 1])
  }

  /** Behind a non-digit, a run of digits is exactly the trailing digits. */
  lemma {:induction false} TrailingDigitsAfter(a: string, d: string)
    requires forall i :: 0 <= i < |d| ==> IsDigit(d[i])
    ensures TrailingDigits(a + "_" + d) == |d|
    decreases |d|
  {
    var s := a + "_" + d;
    if |d| == 0 {
      assert s == a + "_";
    } else {
      var d' := d[..|d| - 1];
      assert s[..|s| - 1] == a + "_" + d';
      TrailingDigitsAfter(a, d');
    }
  }

  /** The input row number can be read back from the filename: between the last `_` and `.jpg`
      stand exactly its decimal digits. Two input rows therefore never write the same cover. */
  lemma CoverFilenamesDistinct(t1: string, i1: nat, t2: string, i2: nat)
    requires CoverFilename(t1, i1) == CoverFilename(t2, i2)
    ensures i1 == i2
  {
    var s1, s2 := SafeTitle(t1), SafeTitle(t2);
    var d1, d2 := Decimal(i1), Decimal(i2);
    var r := CoverFilename(t1, i1);
    var u := r[..|r| - 4];
    assert u == s1 + "_" + d1;
    assert u == s2 + "_" + d2;
    TrailingDigitsAfter(s1, d1);
    TrailingDigitsAfter(s2, d2);
    assert d1 == u[|u| - |d1|..];
    assert d2 == u[|u| - |d2|..];
    DecimalRoundTrip(i1);
    DecimalRoundTrip(i2);
  }

  /** The stored call number: the stripped input when usable, "" otherwise. */
  function NormalizeCallNumber(callNumber: string): (r: string)
    ensures Present(callNumber) ==> r == callNumber
    ensures !Present(callNumber) ==> r == ""
    ensures r != "nan"
  {
    if Present(callNumber) then callNumber else ""
  }

  /** `', '.join(found_authors)`, where a missing `authors` entry defaults to the input author, or
      to "Unknown Author" when that is unusable. */
  function AuthorLine(authors: Option<seq<string>>, author: string): (r: string)
    ensures authors.Some? ==> r == Join(", ", authors.value)
    ensures authors.None? && Present(author) ==> r == author
    ensures authors.None? && !Present(author) ==> r == "Unknown Author"
  {
    var names := match authors
      case Some(a) => a
      case None => if Present(author) then [author] else ["Unknown Author"];
    Join(", ", names)
  }

  /** The fields of `volumeInfo` the script reads; `None` is a missing key. */
  datatype Volume = Volume(
    title: Option<string>,
    authors: Option<seq<string>>,
    identifiers: Option<seq<Identifier>>,
    description: Option<string>)

  /** What became of the cover: no link, a failure before the filename was chosen (download, decode,
      resize), a failure of the save itself after it was chosen, or a saved file. */
  datatype Cover = NoCoverLink | FetchFailed | SaveFailed | Saved

  /** One output row of `data/books.csv`. */
  datatype Record = Record(
    title: string,
    author: string,
    blurb: string,
    isbn: string,
    callNumber: string,
    coverFilename: string)

  /** The `books.append({...})` of one found volume. */
  function Assemble(f: RowFields, idx: nat, v: Volume, cover: Cover): (r: Record)
    ensures v.title.Some? ==> r.title == v.title.value
    ensures v.title.None? ==> r.title == f.title
    ensures r.author == AuthorLine(v.authors, f.author)
    ensures r.blurb == CleanBlurb(v.description)
    ensures |r.blurb| <= StoredBlurbLimit
    ensures r.callNumber == NormalizeCallNumber(f.callNumber)
  {
    var title := match v.title case Some(t) => t case None => f.title;
    Record(
      title,
      AuthorLine(v.authors, f.author),
      CleanBlurb(v.description),
      PickIsbn(v.identifiers),
      NormalizeCallNumber(f.callNumber),
      if cover.SaveFailed? || cover.Saved? then CoverFilename(title, idx) else "")
  }

  /** The stored ISBN is the first ISBN of the volume; the record names a cover file exactly when
      the save was reached, and then the file is the one the cover was saved under. */
  lemma AssembleIdentifiers(f: RowFields, idx: nat, v: Volume, cover: Cover)
    ensures Assemble(f, idx, v, cover).isbn == PickIsbn(v.identifiers)
    ensures var r := Assemble(f, idx, v, cover);
      && (r.coverFilename != "" <==> cover.SaveFailed? || cover.Saved?)
      && (r.coverFilename != "" ==> r.coverFilename == CoverFilename(r.title, idx))
  {
  }

  // ----- The whole loop -----

  /** The answer to one lookup: nothing found, an exception inside the `try`, or a volume. */
  datatype Response = NotFound | Raised(reason: string) | Found(volume: Volume, cover: Cover)

  /** One entry of `failed`: the row as read (call number not normalised) and why. */
  datatype FailedRow = FailedRow(title: string, author: string, callNumber: string, reason: string)

  /** The reason text of a lookup that came back empty. */
  const NotFoundReason := "Not found"

  /** Number of skipped rows among the first `k`. */
  function CountSkipped(fields: seq<RowFields>, k: nat): (c: nat)
    requires k <= |fields|
    decreases k
  {
    if k == 0 then 0
    else CountSkipped(fields, k - 1) + (if Skipped(fields[k - 1]) then 1 else 0)
  }

  /** Every row is skipped, recorded as a book or recorded as a failure, and exactly one of them. */
  lemma {:induction false} CountsPartition(fields: seq<RowFields>, responses: seq<Response>, k: nat)
    requires k <= |fields| == |responses|
    ensures |RecordedRows(fields, responses, k, true)| + |RecordedRows(fields, responses, k, false)|
      + CountSkipped(fields, k) == k
    decreases k
  {
    if k > 0 {
      CountsPartition(fields, responses, k - 1);
    }
  }

  /** What every stored record satisfies: a blurb within the storage bound, a usable or empty call number. */
  predicate WellStored(r: Record) {
    |r.blurb| <= StoredBlurbLimit && r.callNumber != "nan"
  }

  /** The `books` and `failed` lists of a run. */
  datatype Ingested = Ingested(books: seq<Record>, failed: seq<FailedRow>)

  /** How a found row becomes a stored record: `Assemble` in every run. The counting and
      cleanliness facts below hold for any builder meeting their requirement, which keeps the
      text clean-up inside `Assemble` out of their proofs. */
  type Assembler = (RowFields, nat, Volume, Cover) -> Record

  /** The builder keeps every record well stored. */
  ghost predicate AssemblesWellStored(assemble: Assembler) {
    forall f, idx, v, cover :: WellStored(assemble(f, idx, v, cover))
  }

  /** `Assemble` is such a builder. */
  lemma AssembleWellStored()
    ensures AssemblesWellStored(Assemble)
  {
    forall f, idx, v, cover
      ensures WellStored(Assemble(f, idx, v, cover))
    {
    }
  }

  /** One pass of the loop body for input row number `idx`. */
  function Step(acc: Ingested, f: RowFields, idx: nat, response: Response, assemble: Assembler): Ingested {
    if Skipped(f) then acc
    else match response
      case NotFound => acc.(failed := acc.failed + [FailedRow(f.title, f.author, f.callNumber, NotFoundReason)])
      case Raised(reason) => acc.(failed := acc.failed + [FailedRow(f.title, f.author, f.callNumber, reason)])
      case Found(v, cover) => acc.(books := acc.books + [assemble(f, idx, v, cover)])
  }

  /** The lists after the first `k` rows; row `k` (0-based `k - 1`) is input row number `k`. */
  function IngestPrefix(fields: seq<RowFields>, responses: seq<Response>, k: nat, assemble: Assembler): (r: Ingested)
    requires k <= |fields| == |responses|
    decreases k
  {
    if k == 0 then Ingested([], [])
    else Step(IngestPrefix(fields, responses, k - 1, assemble), fields[k - 1], k, responses[k - 1], assemble)
  }

  /** Every stored record is well stored and no failure has a missing title. */
  predicate Clean(r: Ingested) {
    && (forall j :: 0 <= j < |r.books| ==> WellStored(r.books[j]))
    && (forall j :: 0 <= j < |r.failed| ==> Present(r.failed[j].title))
  }

  // ----- Which rows end up where -----

  /** Row `i` (0-based) is not skipped and its lookup found a volume (`stored`) or did not (`!stored`). */
  predicate Recorded(fields: seq<RowFields>, responses: seq<Response>, i: nat, stored: bool) {
    i < |fields| && i < |responses| && !Skipped(fields[i]) && responses[i].Found? == stored
  }

  /** The 0-based numbers, in input order, of the rows among the first `k` recorded as books
      (`stored`) or as failures (`!stored`). */
  function RecordedRows(fields: seq<RowFields>, responses: seq<Response>, k: nat, stored: bool): (r: seq<nat>)
    requires k <= |fields| == |responses|
    ensures forall j :: 0 <= j < |r| ==> r[j] < k && Recorded(fields, responses, r[j], stored)
    ensures forall i :: 0 <= i < k && Recorded(fields, responses, i, stored) ==> i in r
    ensures forall j, j' :: 0 <= j < j' < |r| ==> r[j] < r[j']
    decreases k
  {
    if k == 0 then []
    else RecordedRows(fields, responses, k - 1, stored) + (if Recorded(fields, responses, k - 1, stored) then [k - 1] else [])
  }

  /** The record a found row becomes: input row number `i + 1`. */
  function BookAt(fields: seq<RowFields>, responses: seq<Response>, i: nat, assemble: Assembler): Record
    requires Recorded(fields, responses, i, true)
  {
    assemble(fields[i], i + 1, responses[i].volume, responses[i].cover)
  }

  /** The failure a row whose lookup found nothing or raised becomes. */
  function FailureAt(fields: seq<RowFields>, responses: seq<Response>, i: nat): FailedRow
    requires Recorded(fields, responses, i, false)
  {
    var f := fields[i];
    FailedRow(f.title, f.author, f.callNumber, if responses[i].Raised? then responses[i].reason else NotFoundReason)
  }

  /** The books are the found rows' records, one per found row, in input order. */
  lemma {:induction false} IngestPrefixBooks(fields: seq<RowFields>, responses: seq<Response>, k: nat, assemble: Assembler)
    requires k <= |fields| == |responses|
    ensures var books, rows := IngestPrefix(fields, responses, k, assemble).books, RecordedRows(fields, responses, k, true);
      && |books| == |rows|
      && forall j :: 0 <= j < |rows| ==> books[j] == BookAt(fields, responses, rows[j], assemble)
    decreases k
  {
    if k > 0 {
      IngestPrefixBooks(fields, responses, k - 1, assemble);
    }
  }

  /** The failures are the other rows not skipped, one per row, in input order. */
  lemma {:induction false} IngestPrefixFailures(fields: seq<RowFields>, responses: seq<Response>, k: nat, assemble: Assembler)
    requires k <= |fields| == |responses|
    ensures var failed, rows := IngestPrefix(fields, responses, k, assemble).failed, RecordedRows(fields, responses, k, false);
      && |failed| == |rows|
      && forall j :: 0 <= j < |rows| ==> failed[j] == FailureAt(fields, responses, rows[j])
    decreases k
  {
    if k > 0 {
      IngestPrefixFailures(fields, responses, k - 1, assemble);
    }
  }

  /** Every run's lists are clean. */
  lemma {:induction false} IngestPrefixClean(fields: seq<RowFields>, responses: seq<Response>, k: nat, assemble: Assembler)
    requires k <= |fields| == |responses|
    requires AssemblesWellStored(assemble)
    ensures Clean(IngestPrefix(fields, responses, k, assemble))
    decreases k
  {
    if k > 0 {
      IngestPrefixClean(fields, responses, k - 1, assemble);
    }
  }

  /** The main loop over the rows as read: each is skipped, recorded as a book, or recorded as a
      failure; `fields[i]` is input row `i + 1`, the number its cover filename carries. */
  method IngestRows(fields: seq<RowFields>, responses: seq<Response>, assemble: Assembler)
    returns (books: seq<Record>, failed: seq<FailedRow>)
    requires |responses| == |fields|
    ensures var rows := RecordedRows(fields, responses, |fields|, true);
      && |books| == |rows|
      && forall j :: 0 <= j < |rows| ==> books[j] == BookAt(fields, responses, rows[j], assemble)
    ensures var rows := RecordedRows(fields, responses, |fields|, false);
      && |failed| == |rows|
      && forall j :: 0 <= j < |rows| ==> failed[j] == FailureAt(fields, responses, rows[j])
  {
    books, failed := [], [];
    var i := 0;
    while i < |fields|
      invariant 0 <= i <= |fields|
      invariant Ingested(books, failed) == IngestPrefix(fields, responses, i, assemble)
    {
      var f := fields[i];
      if !Skipped(f) {
        match responses[i]
        case NotFound =>
          failed := failed + [FailedRow(f.title, f.author, f.callNumber, NotFoundReason)];
        case Raised(reason) =>
          failed := failed + [FailedRow(f.title, f.author, f.callNumber, reason)];
        case Found(v, cover) =>
          books := books + [assemble(f, i + 1, v, cover)];
      }
      i := i + 1;
    }
    IngestPrefixBooks(fields, responses, |fields|, assemble);
    IngestPrefixFailures(fields, responses, |fields|, assemble);
  }

  /** Every input row read with the columns the header has. */
  function ReadRows(rows: seq<Row>, columns: Columns): (r: seq<RowFields>)
    requires forall i :: 0 <= i < |rows| ==> "title" in rows[i]
    ensures |r| == |rows|
    ensures forall i :: 0 <= i < |rows| ==> r[i] == ReadRow(rows[i], columns)
  {
    seq(|rows|, i requires 0 <= i < |rows| => ReadRow(rows[i], columns))
  }

  /** The whole script: normalise the header, check for `title`, then run the loop. */
  method Ingest(header: seq<string>, rows: seq<Row>, responses: seq<Response>)
    returns (r: Result<Ingested, IngestError>)
    requires |responses| == |rows|
    requires forall i :: 0 <= i < |rows| ==> forall c :: c in rows[i] <==> c in NormalizeColumns(header)
    ensures r.Failure? <==> "title" !in NormalizeColumns(header)
    ensures r.Success? ==> |r.value.books| + |r.value.failed| <= |rows|
    ensures r.Success? ==> Clean(r.value)
    ensures r.Success? ==>
      var fields := ReadRows(rows, CheckColumns(NormalizeColumns(header)).value);
      var stored := RecordedRows(fields, responses, |rows|, true);
      && |r.value.books| == |stored|
      && forall j :: 0 <= j < |stored| ==> r.value.books[j] == BookAt(fields, responses, stored[j], Assemble)
    ensures r.Success? ==>
      var fields := ReadRows(rows, CheckColumns(NormalizeColumns(header)).value);
      var missed := RecordedRows(fields, responses, |rows|, false);
      && |r.value.failed| == |missed|
      && forall j :: 0 <= j < |missed| ==> r.value.failed[j] == FailureAt(fields, responses, missed[j])
  {
    var columns := NormalizeColumns(header);
    match CheckColumns(columns)
    case Failure(e) =>
      r := Failure(e);
    case Success(present) =>
      var fields := ReadRows(rows, present);
      var books, failed := IngestRows(fields, responses, Assemble);
      AssembleWellStored();
      IngestPrefixClean(fields, responses, |fields|, Assemble);
      CountsPartition(fields, responses, |fields|);
      r := Success(Ingested(books, failed));
  }
}

=== FILE: pipeline.dfy ===
/**
 * How an ingested record reaches the front-ends: `fetchdata.py` writes it to
 * `data/books.csv`, the index builder reads that file back with pandas'
 * default missing-value markers and pickles the frame unchanged.
 */
module Pipeline {
  import opened Wrappers
  import opened Catalogue
  import Ingest
  import Display

  /** One record after the CSV round trip. Every written row has a `call_number` column. */
  function ToBook(r: Ingest.Record): (b: Book)
    ensures b.title == CsvCell(r.title) && b.author == CsvCell(r.author) && b.blurb == CsvCell(r.blurb)
    ensures b.isbn == CsvCell(r.isbn) && b.coverFilename == CsvCell(r.coverFilename)
    ensures b.callNumber == Some(CsvCell(r.callNumber))
  {
    Book(CsvCell(r.title), CsvCell(r.author), CsvCell(r.blurb), CsvCell(r.isbn),
         Some(CsvCell(r.callNumber)), CsvCell(r.coverFilename))
  }

  /** The catalogue the builder reads: one row per record, in order. */
  function ToCatalogue(records: seq<Ingest.Record>): (df: seq<Book>)
    ensures |df| == |records|
    ensures forall i :: 0 <= i < |records| ==> df[i] == ToBook(records[i])
  {
    seq(|records|, i requires 0 <= i < |records| => ToBook(records[i]))
  }

  /** End to end, a call number typed in the input list is displayed exactly when its stripped
      text is not one of pandas' missing-value markers. The ingest-side test for "" and "nan" is
      subsumed; markers such as "NA" or "None" are stored as text but never displayed. */
  lemma CallNumberShownIff(callNumber: string)
    ensures Display.ShowCallNumber(Some(CsvCell(Ingest.NormalizeCallNumber(callNumber))))
      <==> callNumber !in NaMarkers
  {
    if !Ingest.Present(callNumber) {
      assert callNumber == "" || callNumber == "nan";
      assert callNumber in NaMarkers;
      assert Ingest.NormalizeCallNumber(callNumber) == "";
      assert "" in NaMarkers;
    }
  }

  /** A record whose title is not a missing-value marker shows that title unchanged. */
  lemma TitleSurvives(r: Ingest.Record)
    requires r.title !in NaMarkers
    ensures CellStr(ToBook(r).title) == r.title
  {
    CsvPrintsBack(r.title);
  }

  /** A stored blurb is never cut by app2.py's 500-character display rule unless it is longer than
      500. A longer one shows its first 497 characters and "...", so with the 600-character storage
      bound at most 103 stored characters are cut, and the shown text is at most 100 shorter. */
  lemma StoredBlurbDisplay(r: Ingest.Record)
    requires |r.blurb| <= Ingest.StoredBlurbLimit
    requires r.blurb !in NaMarkers
    ensures var shown := Display.ResultBlurb(ToBook(r).blurb, Display.SplitBlurbLimit);
      && shown.Some?
      && (|r.blurb| <= Display.SplitBlurbLimit ==> shown.value == r.blurb)
      && (|r.blurb| > Display.SplitBlurbLimit ==>
            shown.value == r.blurb[..Display.SplitBlurbLimit - 3] + "..."
            && |r.blurb[Display.SplitBlurbLimit - 3..]| <= 103)
      && |r.blurb| - |shown.value| <= 100
  {
  }
}

=== FILE: results.dfy ===
/**
 * What the front-ends do with a FAISS answer: drop the positions that do not
 * name a catalogue row, look the rest up, and either lay them out as cards two
 * per grid row (app.py) or store them for one-at-a-time browsing (app2.py).
 */
module Results {
  import opened Wrappers
  import opened Catalogue
  import Seqs

  /** One entry of `index.search`: a stored vector's position and its squared L2 distance.
      FAISS pads the answer with position -1 when fewer than k vectors are stored. */
  datatype Hit = Hit(position: int, distance: real)

  /** Both front-ends ask FAISS for the 5 nearest vectors. */
  const SearchK := 5

  // ----- The filter as written: `i < len(df)` -----

  /** The hits the comprehension `[... for i in indices[0] if i < len(df)]` keeps. */
  function KeptAsWritten(hits: seq<Hit>, n: int): (r: seq<Hit>)
    ensures |r| <= |hits|
    ensures forall h :: h in r <==> h in hits && h.position < n
  {
    Seqs.Filter(hits, (h: Hit) => h.position < n)
  }

  /** `[df.iloc[i] for i in indices[0] if i < len(df)]`, with `iloc`'s negative indexing;
      `None` is the IndexError a position below `-len(df)` would raise. */
  function RowsAsWritten(df: seq<Book>, hits: seq<Hit>): (r: Option<seq<Book>>)
    decreases |hits|
  {
    if |hits| == 0 then Some([])
    else if hits[0].position >= |df| then RowsAsWritten(df, hits[1..])
    else if hits[0].position < -|df| then None
    else
      match RowsAsWritten(df, hits[1..])
      case None => None
      case Some(rest) => Some([ILoc(df, hits[0].position).value] + rest)
  }

  /** The comprehension as written raises exactly when a kept position is below `-len(df)`, and
      otherwise yields one row per kept hit. */
  lemma {:induction false} RowsAsWrittenDefinedIff(df: seq<Book>, hits: seq<Hit>)
    ensures var r := RowsAsWritten(df, hits);
      && (r.Some? <==> forall i :: 0 <= i < |hits| && hits[i].position < |df| ==> -|df| <= hits[i].position)
      && (r.Some? ==> |r.value| == |KeptAsWritten(hits, |df|)|)
    decreases |hits|
  {
    if |hits| > 0 {
      RowsAsWrittenDefinedIff(df, hits[1..]);
      var keep := (h: Hit) => h.position < |df|;
      assert KeptAsWritten(hits, |df|) == Seqs.Filter(hits, keep);
      assert forall i :: 1 <= i < |hits| ==> hits[i] == hits[1..][i - 1];
    }
  }

  /** A lone padding entry shows the last catalogue book. */
  lemma PaddingAlone(df: seq<Book>, pad: real)
    requires |df| > 0
    ensures RowsAsWritten(df, [Hit(-1, pad)]) == Some([df[|df| - 1]])
  {
    assert [Hit(-1, pad)][1..] == [];
    assert RowsAsWritten(df, []) == Some([]);
    assert ILoc(df, -1).value == df[|df| - 1];
    assert [df[|df| - 1]] + [] == [df[|df| - 1]];
  }

  /** With fewer than five books stored, FAISS pads its answer with -1. The filter as written
      lets each padding entry through and `iloc[-1]` shows the last catalogue book once more. */
  lemma {:induction false} PaddingRepeatsLastBook(df: seq<Book>, hits: seq<Hit>, pad: real)
    requires |df| > 0
    requires RowsAsWritten(df, hits).Some?
    ensures RowsAsWritten(df, hits + [Hit(-1, pad)]) == Some(RowsAsWritten(df, hits).value + [df[|df| - 1]])
    decreases |hits|
  {
    var p := Hit(-1, pad);
    var last := df[|df| - 1];
    if |hits| == 0 {
      assert hits + [p] == [p];
      PaddingAlone(df, pad);
      assert RowsAsWritten(df, hits) == Some([]);
      assert [] + [last] == [last];
    } else {
      var h, rest := hits[0], hits[1..];
      assert (hits + [p])[0] == h;
      assert (hits + [p])[1..] == rest + [p];
      if h.position >= |df| {
        assert RowsAsWritten(df, hits) == RowsAsWritten(df, rest);
        PaddingRepeatsLastBook(df, rest, pad);
      } else {
        var row := ILoc(df, h.position).value;
        var tail := RowsAsWritten(df, rest);
        assert tail.Some? && RowsAsWritten(df, hits) == Some([row] + tail.value);
        PaddingRepeatsLastBook(df, rest, pad);
        assert RowsAsWritten(df, rest + [p]) == Some(tail.value + [last]);
        assert [row] + (tail.value + [last]) == ([row] + tail.value) + [last];
      }
    }
  }

  /** The filter as written keeps a padding entry, at the end of the kept hits. */
  lemma PaddingKeptAsWritten(hits: seq<Hit>, n: nat, pad: real)
    ensures KeptAsWritten(hits + [Hit(-1, pad)], n) == KeptAsWritten(hits, n) + [Hit(-1, pad)]
  {
    var keep := (h: Hit) => h.position < n;
    Seqs.FilterAppend(hits, [Hit(-1, pad)], keep);
    assert Seqs.Filter([Hit(-1, pad)], keep) == [Hit(-1, pad)] + Seqs.Filter([Hit(-1, pad)][1..], keep);
  }

  // ----- The intended filter: `0 <= i < len(df)` -----

  /** The hits that name a catalogue row, in ranked order. */
  function Kept(hits: seq<Hit>, n: int): (r: seq<Hit>)
    ensures |r| <= |hits|
    ensures forall h :: h in r <==> h in hits && 0 <= h.position < n
  {
    Seqs.Filter(hits, (h: Hit) => 0 <= h.position < n)
  }

  /** The catalogue rows of the kept hits, in ranked order. */
  function Rows(df: seq<Book>, hits: seq<Hit>): (r: seq<Book>)
    ensures |r| == |Kept(hits, |df|)| <= |hits|
    ensures forall j :: 0 <= j < |r| ==> r[j] == df[Kept(hits, |df|)[j].position]
    decreases |hits|
  {
    if |hits| == 0 then []
    else if 0 <= hits[0].position < |df| then [df[hits[0].position]] + Rows(df, hits[1..])
    else Rows(df, hits[1..])
  }

  /** Without padding (at least five books stored, positions all real) the filter as written
      and the intended filter keep the same rows. */
  lemma {:induction false} AgreeWithoutPadding(df: seq<Book>, hits: seq<Hit>)
    requires forall i :: 0 <= i < |hits| ==> 0 <= hits[i].position
    ensures RowsAsWritten(df, hits) == Some(Rows(df, hits))
    decreases |hits|
  {
    if |hits| > 0 {
      AgreeWithoutPadding(df, hits[1..]);
    }
  }

  /** Without padding both filters keep the same hits. */
  lemma KeptAgreeWithoutPadding(hits: seq<Hit>, n: int)
    requires forall i :: 0 <= i < |hits| ==> 0 <= hits[i].position
    ensures KeptAsWritten(hits, n) == Kept(hits, n)
  {
    Seqs.FilterSameOnSurvivors(hits, (h: Hit) => h.position < n, (h: Hit) => 0 <= h.position < n);
  }

  /** The intended filter drops a padding entry. */
  lemma {:induction false} PaddingDropped(df: seq<Book>, hits: seq<Hit>, pad: real)
    ensures Rows(df, hits + [Hit(-1, pad)]) == Rows(df, hits)
    decreases |hits|
  {
    var p := Hit(-1, pad);
    if |hits| == 0 {
      assert hits + [p] == [p];
      assert [p][1..] == [];
    } else {
      assert (hits + [p])[1..] == hits[1..] + [p];
      PaddingDropped(df, hits[1..], pad);
    }
  }

  // ----- app.py: the result grid -----

  /** A result card: its rank in the answer, where it sits in the two-column grid, the book and its distance. */
  datatype Card = Card(rank: nat, gridRow: nat, column: nat, book: Book, distance: real)

  /** The cards for the first `k` ranks: a rank whose position names no row leaves its grid cell empty. */
  function CardsOf(df: seq<Book>, hits: seq<Hit>, k: nat): (r: seq<Card>)
    requires k <= |hits|
    ensures |r| <= k
    decreases k
  {
    if k == 0 then []
    else
      var h := hits[k - 1];
      if 0 <= h.position < |df| then
        CardsOf(df, hits, k - 1) + [Card(k - 1, (k - 1) / 2, (k - 1) % 2, df[h.position], h.distance)]
      else CardsOf(df, hits, k - 1)
  }

  /** Rank `k - 1` adds at most one card, after the earlier ones. */
  lemma CardsOfStep(df: seq<Book>, hits: seq<Hit>, k: nat)
    requires 0 < k <= |hits|
    ensures var before := CardsOf(df, hits, k - 1);
      var r := CardsOf(df, hits, k);
      && |before| <= |r| <= |before| + 1
      && (forall j :: 0 <= j < |before| ==> r[j] == before[j])
      && (|r| == |before| + 1 <==> 0 <= hits[k - 1].position < |df|)
      && (|r| == |before| + 1 ==>
            r[|before|] == Card(k - 1, (k - 1) / 2, (k - 1) % 2, df[hits[k - 1].position], hits[k - 1].distance))
  {
  }

  /** Every card shows the row its rank names, with the distance at the same rank, in the grid
      cell the rank fixes: two cards per grid row, the even rank on the left. */
  lemma {:induction false} CardsShowTheirRank(df: seq<Book>, hits: seq<Hit>, k: nat)
    requires k <= |hits|
    ensures var r := CardsOf(df, hits, k);
      forall j :: 0 <= j < |r| ==>
        && r[j].rank < k
        && 0 <= hits[r[j].rank].position < |df|
        && r[j].book == df[hits[r[j].rank].position]
        && r[j].distance == hits[r[j].rank].distance
        && r[j].gridRow == r[j].rank / 2
        && r[j].column == r[j].rank % 2
    decreases k
  {
    if k > 0 {
      CardsShowTheirRank(df, hits, k - 1);
      CardsOfStep(df, hits, k);
    }
  }

  /** Cards come in ranked order. */
  lemma {:induction false} CardsRanked(df: seq<Book>, hits: seq<Hit>, k: nat)
    requires k <= |hits|
    ensures var r := CardsOf(df, hits, k);
      forall j, j' :: 0 <= j < j' < |r| ==> r[j].rank < r[j'].rank
    decreases k
  {
    if k > 0 {
      CardsRanked(df, hits, k - 1);
      CardsShowTheirRank(df, hits, k - 1);
      CardsOfStep(df, hits, k);
    }
  }

  /** Only ranks whose position names no row are skipped. */
  lemma {:induction false} CardsComplete(df: seq<Book>, hits: seq<Hit>, k: nat)
    requires k <= |hits|
    ensures var r := CardsOf(df, hits, k);
      forall i :: 0 <= i < k && 0 <= hits[i].position < |df| ==>
        exists j :: 0 <= j < |r| && r[j].rank == i
    decreases k
  {
    if k > 0 {
      CardsComplete(df, hits, k - 1);
      CardsOfStep(df, hits, k);
      var r := CardsOf(df, hits, k);
      if 0 <= hits[k - 1].position < |df| {
        assert r[|r| - 1].rank == k - 1;
      }
    }
  }

  /** The grid as written: `if result_idx >= len(df): continue` and then `df.iloc[result_idx]`, with
      `iloc`'s negative indexing. `None` is the IndexError a position below `-len(df)` raises. */
  function CardsOfAsWritten(df: seq<Book>, hits: seq<Hit>, k: nat): (r: Option<seq<Card>>)
    requires k <= |hits|
    ensures r.Some? ==> |r.value| <= k
    decreases k
  {
    if k == 0 then Some([])
    else
      match CardsOfAsWritten(df, hits, k - 1)
      case None => None
      case Some(before) =>
        var h := hits[k - 1];
        if h.position >= |df| then Some(before)
        else if h.position < -|df| then None
        else Some(before + [Card(k - 1, (k - 1) / 2, (k - 1) % 2, ILoc(df, h.position).value, h.distance)])
  }

  /** The grid as written raises exactly when some rank's position is below `-len(df)`: such a
      position passes the `>= len(df)` skip and `iloc` rejects it. */
  lemma {:induction false} CardsOfAsWrittenDefinedIff(df: seq<Book>, hits: seq<Hit>, k: nat)
    requires k <= |hits|
    ensures CardsOfAsWritten(df, hits, k).None? <==> exists i :: 0 <= i < k && hits[i].position < -|df|
    decreases k
  {
    if k > 0 {
      CardsOfAsWrittenDefinedIff(df, hits, k - 1);
    }
  }

  /** As written, a padding rank (-1) gets a card showing the last catalogue book. */
  lemma PaddingCardShowsLastBook(df: seq<Book>, hits: seq<Hit>, k: nat)
    requires 0 < k <= |hits|
    requires |df| > 0 && hits[k - 1].position == -1
    requires CardsOfAsWritten(df, hits, k - 1).Some?
    ensures CardsOfAsWritten(df, hits, k) == Some(CardsOfAsWritten(df, hits, k - 1).value
      + [Card(k - 1, (k - 1) / 2, (k - 1) % 2, df[|df| - 1], hits[k - 1].distance)])
  {
  }

  /** Without padding the grid as written and the intended grid show the same cards. */
  lemma {:induction false} CardsAgreeWithoutPadding(df: seq<Book>, hits: seq<Hit>, k: nat)
    requires k <= |hits|
    requires forall i :: 0 <= i < |hits| ==> 0 <= hits[i].position
    ensures CardsOfAsWritten(df, hits, k) == Some(CardsOf(df, hits, k))
    decreases k
  {
    if k > 0 {
      CardsAgreeWithoutPadding(df, hits, k - 1);
    }
  }

  /** All cards of an answer. */
  function Cards(df: seq<Book>, hits: seq<Hit>): (r: seq<Card>)
    ensures |r| <= |hits|
  {
    CardsOf(df, hits, |hits|)
  }

  /** The grid loop of app.py with the corrected test `0 <= position < len(df)`: ranks visited two
      per grid row, left column first. The loop as written is `LayOutGridAsWritten`. */
  method LayOutGrid(df: seq<Book>, hits: seq<Hit>) returns (cards: seq<Card>)
    ensures cards == Cards(df, hits)
    ensures |cards| <= |hits|
  {
    cards := [];
    var i := 0;
    while i < |hits|
      invariant 0 <= i <= |hits| + 1 && i % 2 == 0
      invariant cards == CardsOf(df, hits, if i <= |hits| then i else |hits|)
    {
      var col := 0;
      while col < 2 && i + col < |hits|
        invariant 0 <= col <= 2 && i + col <= |hits|
        invariant cards == CardsOf(df, hits, i + col)
      {
        var rank := i + col;
        var h := hits[rank];
        if 0 <= h.position < |df| {
          cards := cards + [Card(rank, rank / 2, rank % 2, df[h.position], h.distance)];
        }
        col := col + 1;
      }
      assert i + col == if i + 2 <= |hits| then i + 2 else |hits|;
      i := i + 2;
    }
  }

  /** The grid loop of app.py as written: a rank is skipped only when its position is at least
      `len(df)`, and `df.iloc` reads any other position, counting a negative one from the end.
      `None` is the IndexError that `iloc` raises below `-len(df)`, which ends the loop. */
  method LayOutGridAsWritten(df: seq<Book>, hits: seq<Hit>) returns (cards: Option<seq<Card>>)
    ensures cards == CardsOfAsWritten(df, hits, |hits|)
  {
    var shown: seq<Card> := [];
    var i := 0;
    while i < |hits|
      invariant 0 <= i <= |hits| + 1 && i % 2 == 0
      invariant CardsOfAsWritten(df, hits, if i <= |hits| then i else |hits|) == Some(shown)
    {
      var col := 0;
      while col < 2 && i + col < |hits|
        invariant 0 <= col <= 2 && i + col <= |hits|
        invariant CardsOfAsWritten(df, hits, i + col) == Some(shown)
      {
        var rank := i + col;
        var h := hits[rank];
        if h.position < |df| {
          var row := ILoc(df, h.position);
          if row.None? {
            assert 0 <= rank < |hits| && hits[rank].position < -|df|;
            CardsOfAsWrittenDefinedIff(df, hits, |hits|);
            return None;
          }
          shown := shown + [Card(rank, rank / 2, rank % 2, row.value, h.distance)];
        }
        col := col + 1;
      }
      assert i + col == if i + 2 <= |hits| then i + 2 else |hits|;
      i := i + 2;
    }
    cards := Some(shown);
  }

  // ----- app2.py: browsing the stored results one at a time -----

  /** `search_results` and `search_index`. */
  datatype Browse = Browse(results: seq<Book>, cursor: int)

  /** The cursor addresses a stored result, or is 0 over an empty list. */
  predicate CursorValid(b: Browse) {
    0 <= b.cursor && (b.cursor < |b.results| || b.cursor == 0)
  }

  /** A fresh search: the kept rows in ranked order, the cursor on the first. */
  function NewSearch(df: seq<Book>, hits: seq<Hit>): (r: Browse)
    ensures CursorValid(r) && r.cursor == 0
    ensures r.results == Rows(df, hits)
    ensures |r.results| <= |hits|
    ensures |hits| == SearchK ==> |r.results| <= SearchK
  {
    Browse(Rows(df, hits), 0)
  }

  /** "Previous Book": one back, but never past the first result. */
  function BrowsePrevious(b: Browse): (r: Browse)
    requires CursorValid(b)
    ensures CursorValid(r) && r.results == b.results
    ensures b.cursor > 0 ==> r.cursor == b.cursor - 1
    ensures b.cursor == 0 ==> r == b
  {
    if b.cursor > 0 then b.(cursor := b.cursor - 1) else b
  }

  /** "Next Book": one on, but never past the last result. */
  function BrowseNext(b: Browse): (r: Browse)
    requires CursorValid(b)
    ensures CursorValid(r) && r.results == b.results
    ensures b.cursor < |b.results| - 1 ==> r.cursor == b.cursor + 1
    ensures b.cursor >= |b.results| - 1 ==> r == b
  {
    if b.cursor < |b.results| - 1 then b.(cursor := b.cursor + 1) else b
  }

  /** `k` Next clicks in a row. */
  function BrowseNexts(b: Browse, k: nat): (r: Browse)
    requires CursorValid(b)
    ensures CursorValid(r) && r.results == b.results
    decreases k
  {
    if k == 0 then b else BrowseNexts(BrowseNext(b), k - 1)
  }

  /** `k` Previous clicks in a row. */
  function BrowsePreviouses(b: Browse, k: nat): (r: Browse)
    requires CursorValid(b)
    ensures CursorValid(r) && r.results == b.results
    decreases k
  {
    if k == 0 then b else BrowsePreviouses(BrowsePrevious(b), k - 1)
  }

  /** Next clicks saturate at the last result instead of wrapping. */
  lemma {:induction false} BrowseNextsClamp(b: Browse, k: nat)
    requires CursorValid(b) && |b.results| > 0
    ensures BrowseNexts(b, k).cursor ==
      if b.cursor + k < |b.results| then b.cursor + k else |b.results| - 1
    decreases k
  {
    if k > 0 {
      BrowseNextsClamp(BrowseNext(b), k - 1);
    }
  }

  /** Previous clicks saturate at the first result instead of wrapping. */
  lemma {:induction false} BrowsePreviousesClamp(b: Browse, k: nat)
    requires CursorValid(b)
    ensures BrowsePreviouses(b, k).cursor == if b.cursor >= k then b.cursor - k else 0
    decreases k
  {
    if k > 0 {
      BrowsePreviousesClamp(BrowsePrevious(b), k - 1);
    }
  }
}

=== FILE: seqs.dfy ===
/** Order-preserving filtering, shared by the result filters and the filename sanitiser. */
module Seqs {

  /** The elements of `s` that satisfy `keep`, in their original order. */
  function Filter<T(!new)>(s: seq<T>, keep: T -> bool): (r: seq<T>)
    ensures |r| <= |s|
    ensures forall x :: x in r <==> x in s && keep(x)
    decreases |s|
  {
    if |s| == 0 then []
    else if keep(s[0]) then [s[0]] + Filter(s[1..], keep)
    else Filter(s[1..], keep)
  }

  /** Filtering a concatenation filters each part: the relative order of survivors is kept. */
  lemma {:induction false} FilterAppend<T(!new)>(a: seq<T>, b: seq<T>, keep: T -> bool)
    ensures Filter(a + b, keep) == Filter(a, keep) + Filter(b, keep)
    decreases |a|
  {
    if |a| == 0 {
      assert a + b == b;
    } else {
      assert (a + b)[1..] == a[1..] + b;
      FilterAppend(a[1..], b, keep);
    }
  }

  /** A sequence whose every element passes the test is left as it is. */
  lemma {:induction false} FilterAllKept<T(!new)>(s: seq<T>, keep: T -> bool)
    requires forall i :: 0 <= i < |s| ==> keep(s[i])
    ensures Filter(s, keep) == s
    decreases |s|
  {
    if |s| > 0 {
      FilterAllKept(s[1..], keep);
    }
  }

  /** Two tests that agree on every element of `s` keep the same elements. */
  lemma {:induction false} FilterSameOnSurvivors<T(!new)>(s: seq<T>, p: T -> bool, q: T -> bool)
    requires forall i :: 0 <= i < |s| ==> (p(s[i]) <==> q(s[i]))
    ensures Filter(s, p) == Filter(s, q)
    decreases |s|
  {
    if |s| > 0 {
      FilterSameOnSurvivors(s[1..], p, q);
    }
  }
}

=== FILE: split_app.dfy ===
/**
 * One refresh of app2.py: the timer check, the carousel buttons (both end the
 * refresh with a rerun), then the search column, which either answers a new
 * query, shows the stored result under the cursor with its Previous/Next Book
 * buttons, warns about a blank query, or shows the instructions.
 */
module SplitApp {
  import opened Wrappers
  import opened Catalogue
  import Text
  import Carousel
  import Results
  import Display

  /** The session: the carousel and, once a search has run, `search_results` with `search_index`. */
  datatype Session = Session(carousel: Carousel.State, search: Option<Results.Browse>)

  predicate SessionValid(sess: Session) {
    && Carousel.Valid(sess.carousel)
    && (sess.search.Some? ==> Results.CursorValid(sess.search.value))
  }

  /** Every stored result is a row of the catalogue. */
  predicate ResultsFrom(df: seq<Book>, sess: Session) {
    sess.search.Some? ==> forall j :: 0 <= j < |sess.search.value.results| ==> sess.search.value.results[j] in df
  }

  /** A new session: the carousel as `Carousel.Init` builds it with app2.py's settings, no search yet. */
  function NewSession(size: nat, shuffle: seq<nat>, now: int): (r: Result<Session, Carousel.InitError>)
    requires Carousel.IsShuffle(shuffle, size)
    ensures r.Failure? <==> size == 0
    ensures r.Success? ==> SessionValid(r.value) && r.value.search.None?
    ensures r.Success? ==> r.value.carousel.position == 0
    ensures r.Success? ==> |r.value.carousel.books| == Carousel.Min(50, size)
  {
    match Carousel.Init(Carousel.Split, size, shuffle, now)
    case Failure(e) => Failure(e)
    case Success(c) => Success(Session(c, None))
  }

  /** The one widget event a refresh carries. */
  datatype Event =
    | Idle
    | CarouselPrev
    | CarouselNext
    | SearchClick(query: string, hits: seq<Results.Hit>)
    | ResultPrev
    | ResultNext

  /** What the refresh ends with. `Rotated`, `CarouselMoved` and `Searched` end in a rerun.
      `ShowResult` is the stored result under the cursor as this refresh prints it (its blurb cut at
      500 characters, `None` when a missing blurb makes `len` raise), with its 1-based number. */
  datatype View =
    | Rotated
    | CarouselMoved
    | Searched
    | ShowResult(book: Book, blurb: Option<string>, callNumberShown: bool, number: nat, total: nat)
    | BlankQueryWarning
    | Instructions

  datatype Outcome = Outcome(session: Session, view: View)

  /** True when the session holds a non-empty result list: the test of the `elif` at line 269. */
  predicate HasResults(sess: Session) {
    sess.search.Some? && |sess.search.value.results| > 0
  }

  /** The stored result under the cursor, as the display branch prints it. */
  function ShowCurrent(b: Results.Browse): (v: View)
    requires Results.CursorValid(b) && |b.results| > 0
    ensures v.ShowResult? && v.book == b.results[b.cursor]
    ensures 1 <= v.number <= v.total == |b.results|
    ensures v.blurb.Some? <==> v.book.blurb.Str?
    ensures v.blurb.Some? ==> |v.blurb.value| <= Display.SplitBlurbLimit
    ensures v.book.blurb.Str? && |v.book.blurb.s| <= Display.SplitBlurbLimit ==> v.blurb == Some(v.book.blurb.s)
    ensures v.book.blurb.Str? && |v.book.blurb.s| > Display.SplitBlurbLimit ==>
      v.blurb == Some(v.book.blurb.s[..Display.SplitBlurbLimit - 3] + "...")
    ensures v.callNumberShown <==> Display.ShowCallNumber(v.book.callNumber)
  {
    var book := b.results[b.cursor];
    ShowResult(book, Display.ResultBlurb(book.blurb, Display.SplitBlurbLimit),
               Display.ShowCallNumber(book.callNumber), b.cursor + 1, |b.results|)
  }

  /** The search column of a refresh that reached it. */
  function SearchColumn(df: seq<Book>, sess: Session, e: Event): (r: Outcome)
    requires SessionValid(sess)
    ensures SessionValid(r.session) && r.session.carousel == sess.carousel
    ensures e.SearchClick? && !Text.AllSpace(e.query) ==>
      r == Outcome(sess.(search := Some(Results.NewSearch(df, e.hits))), Searched)
    ensures !(e.SearchClick? && !Text.AllSpace(e.query)) && HasResults(sess) ==>
      var b := sess.search.value;
      && r.view == ShowCurrent(b)
      && r.session.search == Some(
           if e.ResultPrev? then Results.BrowsePrevious(b)
           else if e.ResultNext? then Results.BrowseNext(b)
           else b)
    ensures !(e.SearchClick? && !Text.AllSpace(e.query)) && !HasResults(sess) ==>
      r.session == sess && r.view == (if e.SearchClick? then BlankQueryWarning else Instructions)
  {
    if e.SearchClick? && (Text.StripEmptyIff(e.query); Text.Strip(e.query) != "") then
      Outcome(sess.(search := Some(Results.NewSearch(df, e.hits))), Searched)
    else if HasResults(sess) then
      var b := sess.search.value;
      var moved :=
        if e.ResultPrev? then Results.BrowsePrevious(b)
        else if e.ResultNext? then Results.BrowseNext(b)
        else b;
      Outcome(sess.(search := Some(moved)), ShowCurrent(b))
    else if e.SearchClick? then Outcome(sess, BlankQueryWarning)
    else Outcome(sess, Instructions)
  }

  /** One refresh of app2.py. */
  function Refresh(df: seq<Book>, sess: Session, now: int, e: Event): (r: Outcome)
    requires SessionValid(sess)
    ensures SessionValid(r.session)
    ensures r.session.carousel.books == sess.carousel.books
    ensures Carousel.TimerFires(Carousel.Split, sess.carousel, now) ==>
      r == Outcome(sess.(carousel := Carousel.TimerStep(Carousel.Split, sess.carousel, now)), Rotated)
    ensures !Carousel.TimerFires(Carousel.Split, sess.carousel, now) && e.CarouselPrev? ==>
      r == Outcome(sess.(carousel := Carousel.Previous(Carousel.Split, sess.carousel, now)), CarouselMoved)
    ensures !Carousel.TimerFires(Carousel.Split, sess.carousel, now) && e.CarouselNext? ==>
      r == Outcome(sess.(carousel := Carousel.Next(Carousel.Split, sess.carousel, now)), CarouselMoved)
    ensures !Carousel.TimerFires(Carousel.Split, sess.carousel, now) && !e.CarouselPrev? && !e.CarouselNext? ==>
      r == SearchColumn(df, sess, e)
  {
    var c := sess.carousel;
    if Carousel.TimerFires(Carousel.Split, c, now) then
      Outcome(sess.(carousel := Carousel.TimerStep(Carousel.Split, c, now)), Rotated)
    else if e.CarouselPrev? then
      Outcome(sess.(carousel := Carousel.Previous(Carousel.Split, c, now)), CarouselMoved)
    else if e.CarouselNext? then
      Outcome(sess.(carousel := Carousel.Next(Carousel.Split, c, now)), CarouselMoved)
    else SearchColumn(df, sess, e)
  }

  /** A due rotation pre-empts every button: whatever was clicked, the refresh only rotates. */
  lemma TimerPreemptsButtons(df: seq<Book>, sess: Session, now: int, e: Event)
    requires SessionValid(sess)
    requires Carousel.TimerFires(Carousel.Split, sess.carousel, now)
    ensures Refresh(df, sess, now, e) == Refresh(df, sess, now, Idle)
    ensures Refresh(df, sess, now, e).session.search == sess.search
  {
  }

  /** A blank query never runs a search and never touches the stored results' list; with results
      stored it shows the current result instead of the warning. */
  lemma BlankQueryNeverSearches(df: seq<Book>, sess: Session, now: int, q: string, hits: seq<Results.Hit>)
    requires SessionValid(sess)
    requires Text.AllSpace(q)
    ensures var r := Refresh(df, sess, now, SearchClick(q, hits));
      && r.session.search == sess.search
      && (r.view == BlankQueryWarning <==>
            !Carousel.TimerFires(Carousel.Split, sess.carousel, now) && !HasResults(sess))
  {
  }

  /** The carousel buttons restart the rotation timer; nothing in the search column moves it. */
  lemma OnlyCarouselEventsMoveTheTimer(df: seq<Book>, sess: Session, now: int, e: Event)
    requires SessionValid(sess)
    requires !Carousel.TimerFires(Carousel.Split, sess.carousel, now)
    ensures var r := Refresh(df, sess, now, e);
      r.session.carousel.lastRotation == (if e.CarouselPrev? || e.CarouselNext? then now else sess.carousel.lastRotation)
  {
  }

  /** Stored results are always catalogue rows, so every result the page shows is one. */
  lemma RefreshKeepsResultsFrom(df: seq<Book>, sess: Session, now: int, e: Event)
    requires SessionValid(sess) && ResultsFrom(df, sess)
    ensures var r := Refresh(df, sess, now, e);
      && ResultsFrom(df, r.session)
      && (r.view.ShowResult? ==> r.view.book in df)
  {
    var r := Refresh(df, sess, now, e);
    if r.session.search.Some? && r.session.search != sess.search && e.SearchClick? {
      var rows := Results.Rows(df, e.hits);
      var kept := Results.Kept(e.hits, |df|);
      forall j | 0 <= j < |rows|
        ensures rows[j] in df
      {
        assert kept[j] in kept;
      }
    }
  }
}

=== FILE: text.dfy ===
/**
 * The handful of Python `str` operations the scripts rely on, over ASCII:
 * `strip`, `lower`, `replace` of one character, `isalnum`, `join`, `str(int)`
 * and the "cut and add an ellipsis" idiom used for every blurb.
 */
module Text {

  /** ASCII whitespace as `str.strip` sees it (`str.isspace`): space, tab, newline, vertical tab,
      form feed, carriage return, and the four separators U+001C to U+001F. */
  predicate IsSpace(c: char) {
    c == ' ' || ('\t' <= c <= '\r') || ('\U{1C}' <= c <= '\U{1F}')
  }

  predicate IsUpper(c: char) { 'A' <= c <= 'Z' }

  predicate IsDigit(c: char) { '0' <= c <= '9' }

  /** ASCII `str.isalnum` for one character. */
  predicate IsAlnum(c: char) {
    IsDigit(c) || IsUpper(c) || ('a' <= c <= 'z')
  }

  /** True when every character of `s` is whitespace (vacuously for ""). */
  predicate AllSpace(s: string) {
    forall i :: 0 <= i < |s| ==> IsSpace(s[i])
  }

  /** The first position at or after `from` that does not hold whitespace, or `|s|`:
      where `s.strip()` starts when `from` is 0. */
  function SkipSpace(s: string, from: nat): (k: nat)
    requires from <= |s|
    ensures from <= k <= |s|
    ensures forall i :: from <= i < k ==> IsSpace(s[i])
    ensures k < |s| ==> !IsSpace(s[k])
    decreases |s| - from
  {
    if from < |s| && IsSpace(s[from]) then SkipSpace(s, from + 1) else from
  }

  /** The end of the last non-whitespace character before `stop`, but not below `low`:
      where `s.strip()` ends. */
  function TrimSpace(s: string, low: nat, stop: nat): (k: nat)
    requires low <= stop <= |s|
    ensures low <= k <= stop
    ensures forall i :: k <= i < stop ==> IsSpace(s[i])
    ensures k > low ==> !IsSpace(s[k - 1])
    decreases stop
  {
    if stop > low && IsSpace(s[stop - 1]) then TrimSpace(s, low, stop - 1) else stop
  }

  /** `s.strip()`: the piece of `s` left once the leading and trailing whitespace is cut off. */
  function Strip(s: string): (r: string)
    ensures |r| <= |s|
    ensures |r| > 0 ==> !IsSpace(r[0]) && !IsSpace(r[|r| - 1])
    ensures SkipSpace(s, 0) + |r| <= |s| && r == s[SkipSpace(s, 0)..SkipSpace(s, 0) + |r|]
    ensures forall i :: 0 <= i < SkipSpace(s, 0) ==> IsSpace(s[i])
    ensures forall i :: SkipSpace(s, 0) + |r| <= i < |s| ==> IsSpace(s[i])
  {
    var start := SkipSpace(s, 0);
    s[start..TrimSpace(s, start, |s|)]
  }

  /** Where the leading whitespace ends depends only on which positions hold whitespace. */
  lemma {:induction false} SkipSpaceSame(s: string, t: string, from: nat)
    requires from <= |s| == |t|
    requires forall i :: 0 <= i < |s| ==> (IsSpace(s[i]) <==> IsSpace(t[i]))
    ensures SkipSpace(s, from) == SkipSpace(t, from)
    decreases |s| - from
  {
    if from < |s| && IsSpace(s[from]) {
      SkipSpaceSame(s, t, from + 1);
    }
  }

  /** Where the trailing whitespace starts depends only on which positions hold whitespace. */
  lemma {:induction false} TrimSpaceSame(s: string, t: string, low: nat, stop: nat)
    requires low <= stop <= |s| == |t|
    requires forall i :: 0 <= i < |s| ==> (IsSpace(s[i]) <==> IsSpace(t[i]))
    ensures TrimSpace(s, low, stop) == TrimSpace(t, low, stop)
    decreases stop
  {
    if stop > low && IsSpace(s[stop - 1]) {
      TrimSpaceSame(s, t, low, stop - 1);
    }
  }

  /** Stripping only removes characters: one absent before is absent after. */
  lemma StripKeepsAbsent(s: string, c: char)
    requires c !in s
    ensures c !in Strip(s)
  {
  }

  /** A string strips to "" exactly when it is all whitespace; this is the
      "blank query" test both front-ends apply before searching. */
  lemma StripEmptyIff(s: string)
    ensures Strip(s) == "" <==> AllSpace(s)
  {
  }

  /** A string without surrounding whitespace is its own strip. */
  lemma StripKeepsStripped(s: string)
    requires |s| > 0 ==> !IsSpace(s[0]) && !IsSpace(s[|s| - 1])
    ensures Strip(s) == s
  {
    if |s| > 0 {
      assert SkipSpace(s, 0) == 0;
    }
  }

  /** Stripping twice is stripping once. */
  lemma StripIdempotent(s: string)
    ensures Strip(Strip(s)) == Strip(s)
  {
    StripKeepsStripped(Strip(s));
  }

  /** Two strings with whitespace at the same positions strip to the same range of positions. */
  lemma StripSameSpaces(s: string, t: string)
    requires |s| == |t|
    requires forall i :: 0 <= i < |s| ==> (IsSpace(s[i]) <==> IsSpace(t[i]))
    ensures var k := SkipSpace(s, 0);
      k + |Strip(s)| <= |t| && Strip(t) == t[k..k + |Strip(s)|]
  {
    SkipSpaceSame(s, t, 0);
    TrimSpaceSame(s, t, SkipSpace(s, 0), |s|);
  }

  /** Replacing one whitespace character by another commutes with stripping. */
  lemma StripReplaceSpace(s: string, a: char, b: char)
    requires IsSpace(a) && IsSpace(b)
    ensures Strip(ReplaceChar(s, a, b)) == ReplaceChar(Strip(s), a, b)
  {
    var t := ReplaceChar(s, a, b);
    ReplaceSpaceKeepsSpaces(s, a, b);
    StripSameSpaces(s, t);
    var k, r := SkipSpace(s, 0), Strip(s);
    assert r == s[k..k + |r|];
    ReplaceCharSlice(s, a, b, k, k + |r|);
  }

  function LowerChar(c: char): (d: char)
    ensures !IsUpper(d)
    ensures !IsUpper(c) ==> d == c
    ensures IsUpper(c) ==> d as int == c as int + 32
  {
    if IsUpper(c) then (c as int + 32) as char else c
  }

  /** `s.lower()` over ASCII: same length, no upper-case letter left, other characters untouched. */
  function Lower(s: string): (r: string)
    ensures |r| == |s|
    ensures forall i :: 0 <= i < |r| ==> !IsUpper(r[i])
    ensures forall i :: 0 <= i < |s| && !IsUpper(s[i]) ==> r[i] == s[i]
    ensures forall i :: 0 <= i < |s| && IsUpper(s[i]) ==> r[i] as int == s[i] as int + 32
  {
    seq(|s|, i requires 0 <= i < |s| => LowerChar(s[i]))
  }

  /** `s.replace(a, b)` for single characters: every `a` becomes `b`, every other character stays. */
  function ReplaceChar(s: string, a: char, b: char): (r: string)
    ensures |r| == |s|
    ensures forall i :: 0 <= i < |s| && s[i] != a ==> r[i] == s[i]
    ensures forall i :: 0 <= i < |s| && s[i] == a ==> r[i] == b
    ensures a != b ==> a !in r
    ensures a !in s ==> r == s
  {
    seq(|s|, i requires 0 <= i < |s| => if s[i] == a then b else s[i])
  }

  /** Replacing one whitespace character by another leaves whitespace at the same positions. */
  lemma ReplaceSpaceKeepsSpaces(s: string, a: char, b: char)
    requires IsSpace(a) && IsSpace(b)
    ensures forall i :: 0 <= i < |s| ==> (IsSpace(s[i]) <==> IsSpace(ReplaceChar(s, a, b)[i]))
  {
  }

  /** Replacing within a slice is slicing the replaced string. */
  lemma ReplaceCharSlice(s: string, a: char, b: char, lo: nat, hi: nat)
    requires lo <= hi <= |s|
    ensures ReplaceChar(s[lo..hi], a, b) == ReplaceChar(s, a, b)[lo..hi]
  {
  }

  /** `sep.join(parts)`. */
  function Join(sep: string, parts: seq<string>): (r: string)
    ensures |parts| == 0 ==> r == ""
    ensures |parts| > 0 ==> |r| == TotalLength(parts) + |sep| * (|parts| - 1)
    ensures |parts| > 0 ==> r[..|parts[0]|] == parts[0]
    ensures |parts| > 1 ==> r[|parts[0]|..|parts[0]| + |sep|] == sep
    ensures |parts| > 1 ==> r[|parts[0]| + |sep|..] == Join(sep, parts[1..])
    decreases |parts|
  {
    if |parts| == 0 then ""
    else if |parts| == 1 then parts[0]
    else
      var rest := Join(sep, parts[1..]);
      var r := parts[0] + sep + rest;
      assert r[..|parts[0]|] == parts[0];
      assert r[|parts[0]|..|parts[0]| + |sep|] == sep;
      assert r[|parts[0]| + |sep|..] == rest;
      JoinLengthStep(|sep|, |parts|);
      r
  }

  /** The separators of `n` parts are one more than those of `n - 1`. */
  lemma JoinLengthStep(sepLength: nat, n: nat)
    requires n >= 2
    ensures sepLength * (n - 1) == sepLength + sepLength * (n - 2)
  {
  }

  /** Sum of the lengths of `parts`. */
  function TotalLength(parts: seq<string>): nat
    decreases |parts|
  {
    if |parts| == 0 then 0 else |parts[0]| + TotalLength(parts[1..])
  }

  function DigitChar(d: nat): (c: char)
    requires d < 10
    ensures IsDigit(c)
  {
    ('0' as int + d) as char
  }

  /** `str(n)` for a non-negative integer: its decimal digits, no leading zero. */
  function Decimal(n: nat): (r: string)
    ensures |r| > 0
    ensures forall i :: 0 <= i < |r| ==> IsDigit(r[i])
    ensures r[0] == '0' ==> n == 0
    decreases n
  {
    if n < 10 then [DigitChar(n)] else Decimal(n / 10) + [DigitChar(n % 10)]
  }

  /** The number a string of decimal digits denotes. */
  function DigitsValue(s: string): nat
    requires forall i :: 0 <= i < |s| ==> IsDigit(s[i])
    decreases |s|
  {
    if |s| == 0 then 0
    else
      assert IsDigit(s[|s| - 1]);
      10 * DigitsValue(s[..|s| - 1]) + (s[|s| - 1] as int - '0' as int)
  }

  /** Reading back `str(n)` gives `n`. */
  lemma {:induction false} DecimalRoundTrip(n: nat)
    ensures DigitsValue(Decimal(n)) == n
    decreases n
  {
    if n >= 10 {
      var d := Decimal(n);
      assert d[..|d| - 1] == Decimal(n / 10);
      DecimalRoundTrip(n / 10);
    }
  }

  /** The display idiom `s if len(s) <= limit else s[:limit - 3] + "..."`. */
  function Ellipsize(s: string, limit: nat): (r: string)
    requires limit >= 3
    ensures |r| <= limit
    ensures |s| <= limit ==> r == s
    ensures |s| > limit ==> |r| == limit && r[..limit - 3] == s[..limit - 3] && r[limit - 3..] == "..."
  {
    if |s| > limit then s[..limit - 3] + "..." else s
  }

  /** The cut adds only dots: a character other than '.' absent before is absent after. */
  lemma EllipsizeKeepsAbsent(s: string, limit: nat, c: char)
    requires limit >= 3
    requires c !in s && c != '.'
    ensures c !in Ellipsize(s, limit)
  {
    if |s| > limit {
      var r := Ellipsize(s, limit);
      forall i | 0 <= i < |r|
        ensures r[i] != c
      {
        if i < limit - 3 {
          assert r[i] == s[i];
        } else {
          assert r[i] == "..."[i - (limit - 3)];
        }
      }
    }
  }

  /** Cutting a blurb that is already short enough changes nothing. */
  lemma EllipsizeIdempotent(s: string, limit: nat)
    requires limit >= 3
    ensures Ellipsize(Ellipsize(s, limit), limit) == Ellipsize(s, limit)
  {
  }
}

=== FILE: wrappers.dfy ===
/** Failure-carrying results used across the model. */
module Wrappers {

  /** A value that may be absent (a missing dictionary key, an unset session entry). */
  datatype Option<+T> = None | Some(value: T)

  /** Either a value or the error that stopped the computation. */
  datatype Result<+T, +E> = Success(value: T) | Failure(error: E)
}
